=== FILE: README.md ===
# Task management API — a Dafny model of its core

This project models the request-handling core of a small REST service. Users
register, log in and manage their own tasks. The model covers:

- **Task operations** (`controllers/taskController.js`): create, get, update
  and delete a single task. Existence is decided before ownership, so a
  missing task is a 404 for everyone and someone else's task is a 403. The
  listing (`getTasks`) filters, sorts newest first and paginates. The
  statistics (`getTaskStats`) group tasks by completion and by priority.
- **Account operations** (`controllers/authController.js`): register, log in,
  current user, log out, profile update and password change, together with
  the session cookie and the two configuration values they read
  (`config/config.js`).
- **Request validation** (`middleware/validationMiddleware.js`): the
  sanitizer and check chains for registration, login, task bodies and the
  `:id` parameter, and the gate that answers 400 with every error.
- **Error translation** (`middleware/errorMiddleware.js`): the mapping from a
  thrown error to the status, message and stack of the JSON error reply.

Each single-record operation (task create, get, update and delete, and
every account operation) is a pure function from the store and the request
to a `Reply(status, state, body)`. The next state is part of the reply, so
each contract can say what changes in the store and what does not. The
listing and the statistics only read the store: they are small methods that
return the tasks they fold over together with the page (`Listing.ListTasks`)
or the two groupings (`Stats.GetTaskStats`). Databases become in-memory
values:

- the task collection is a map from task id to task, with every task stored
  under its own id (`Tasks.Keyed`);
- the user collection is a sequence in insertion order, with unique ids and
  unique emails (`Auth.WellFormed`). A lookup returns the first match.

The database's work is done by explicit code: a filtering scan, an insertion
sort on creation time, a skip/limit slice and a sorted group-by fold
(module `Grouping`).

Modules and files:

| file | module | what it holds |
|---|---|---|
| common.dfy | Common | `Option`, ids, the `Reply` envelope |
| text.dfy | Text | JavaScript whitespace trimming, `parseInt(s, 10)`, the falsy-fallback idiom, the `isLength` character count, code-point string order |
| grouping.dfy | Grouping | a fold that groups a sequence by key into key-ascending groups |
| errors.dfy | ErrorMapping | the error translator |
| validation.dfy | Validation | validator chains and the gate |
| tasks.dfy | Tasks | task records, create / get / update / delete |
| listing.dfy | Listing | `getTasks`: filter, newest-first order, pages |
| stats.dfy | Stats | `getTaskStats`: completion and priority groupings |
| auth.dfy | Auth | configuration, cookies, the account operations |

Points of the code's behaviour that the model makes explicit:

- The `trim` and `normalizeEmail` sanitizers rewrite the body before the
  handler runs, so handlers see the sanitized values. The gate passes the
  sanitized input to the handler.
- Every check in a chain runs, so one field can produce several errors. For
  example, a blank registration password is reported both as missing and as
  too short.
- A task update can hand the task to another user: a `user` field in the
  update body is written like any other field (`Tasks.UpdateCanTransferOwnership`).
- Validation errors are 400s. Duplicate-key errors are 400s too, through
  the translator's code-11000 rule.
- Length limits count characters the way the `isLength` check does: one per
  code point, with the variation selectors U+FE0E and U+FE0F not counted
  (`Text.CountedLength`).
- The login route trims the password, but the password-change route runs no
  validation chain. A new password sent with surrounding whitespace is
  stored as sent and can then never log in (see "## Findings").

## Model

| member | source | states |
|---|---|---|
| `Text.TrimSlice` | middleware/validationMiddleware.js:23 | `trim()` removes exactly the leading and trailing JavaScript whitespace: the result is a slice of the input, with whitespace only outside it and none at either end of it |
| `Text.TrimEmptyIffAllSpace` | middleware/validationMiddleware.js:23-24 | a trimmed field is empty, which is when `notEmpty()` fails, exactly when every character of it is whitespace |
| `Text.TrimIdempotent` | middleware/validationMiddleware.js:23 | trimming an already trimmed value changes nothing |
| `Text.IntOr` | controllers/taskController.js:41-42 | `parseInt(param, 10)` with its falsy fallback is the parsed value when the parameter is present and parses to a non-zero number. An absent parameter, `NaN` or 0 gives the fallback. The result is never 0 when the fallback is not |
| `Text.CountedLength` | middleware/validationMiddleware.js:25 | the length `isLength` compares is the number of code points minus the number of U+FE0E and U+FE0F selectors, so it equals the code-point count when the string holds none |
| `Text.CountedLengthAppend` | middleware/validationMiddleware.js:25 | the counted length of a concatenation is the sum of the parts' counted lengths, so padding counts exactly its non-selector characters |
| `Text.ParseIntShow` | controllers/taskController.js:41-42 | `parseInt` reads every decimal rendering of an integer, negative ones included, back to that integer |
| `Text.LexLessTransitive` | controllers/taskController.js:199 | the code-point string order used to sort the priority groups is transitive |
| `Text.LexLessConnected` | controllers/taskController.js:199 | any two distinct strings are ordered one way or the other |
| `Grouping.GroupByCorrect` | controllers/taskController.js:178-188 | the group-and-sort fold yields groups whose keys strictly ascend. Each group holds exactly the elements with its key, in input order, and is non-empty. A key has a group iff some element has it. Group sizes sum to the input length |
| `ErrorMapping.RunRulesIsLastFiring` | middleware/errorMiddleware.js:19-50 | running the five `if` rewrites in order amounts to applying only the last rule whose condition holds, or none |
| `ErrorMapping.Classify` | middleware/errorMiddleware.js:11-58 | the reply status is the last firing rule's status, else the error's own non-zero `statusCode`, else 500. The message is that rule's message, else the error's message, else "Server Error". The message is never empty and the status never 0 |
| `ErrorMapping.Respond` | middleware/errorMiddleware.js:54-58 | the reply always says `success: false` and carries the classified status and message. In production the stack is the fixed pancake emoji; elsewhere it is the error's own stack |
| `ErrorMapping.CastErrorIsNotFound` | middleware/errorMiddleware.js:19-23 | a `CastError` is a 404 "Resource not found" unless it also carries code 11000 |
| `ErrorMapping.DuplicateKeyIs400` | middleware/errorMiddleware.js:26-30 | code 11000 is a 400 "Duplicate field value entered" unless a later rule fires |
| `ErrorMapping.ValidationErrorJoinsMessages` | middleware/errorMiddleware.js:33-37 | a schema `ValidationError` is a 400 whose message is the field messages joined by ", ", or "Server Error" when that joined text is empty |
| `ErrorMapping.TokenErrorsAre401` | middleware/errorMiddleware.js:40-50 | both token errors are 401s with their fixed messages |
| `ErrorMapping.LaterRuleWins` | middleware/errorMiddleware.js:19-30 | the later check overrides the earlier one: a cast error with code 11000 is a 400, not a 404 |
| `ErrorMapping.UnmatchedKeepsOwnStatus` | middleware/errorMiddleware.js:52-56 | when no rule fires, the error's own non-zero status is kept (else 500) and its own message is kept (else "Server Error") |
| `Validation.SubsequenceDetermined` | middleware/validationMiddleware.js:8-12 | over a chain whose checks are all different, an error list that keeps the chains' declaration order is fixed by which checks failed. So the contracts below, which say which errors are present and that they come in order, leave exactly one list |
| `Validation.NameErrors` | middleware/validationMiddleware.js:22-25 | on the trimmed name, "Name is required" is reported iff it is empty, and "Name cannot be more than 50 characters" iff it counts more than 50 characters, in that order. The name passes iff neither is reported |
| `Validation.EmailErrors` | middleware/validationMiddleware.js:27-31 | on the trimmed email, "Email is required" is reported iff it is empty, and "Please provide a valid email" iff the email predicate rejects it, in that order |
| `Validation.EmptyEmailGetsBoth` | middleware/validationMiddleware.js:27-30 | both checks of the chain run: for an email syntax that refuses "", as validator.js's `isEmail` does, an empty email gets exactly "Email is required" then "Please provide a valid email" |
| `Validation.PasswordErrors` | middleware/validationMiddleware.js:33-36 | on the trimmed password, "Password is required" is reported iff it is empty, and "Password must be at least 6 characters" iff it counts fewer than 6 characters, in that order |
| `Validation.RegisterValidation` | middleware/validationMiddleware.js:21-39 | each of the six registration messages is reported iff its check fails on the trimmed field. The errors come name first, then email, then password, each chain in declaration order. The handler receives the trimmed name, the normalized trimmed email and the trimmed password |
| `Validation.LoginValidation` | middleware/validationMiddleware.js:44-56 | the two email messages are reported as on registration, and "Password is required" iff the trimmed password is empty, in that order. No length error exists at login. The handler receives the sanitized credentials |
| `Validation.LoginAsksLessThanRegister` | middleware/validationMiddleware.js:21-56 | for the same email and password, the login errors are a subsequence of the registration errors. So a body registration accepts is accepted at login, and both hand on the same sanitized email and password |
| `Validation.TitleErrors` | middleware/validationMiddleware.js:62-65 | on the trimmed title, "Title is required" iff it is empty and "Title cannot be more than 100 characters" iff it counts more than 100 characters, in that order |
| `Validation.OptionalErrors` | middleware/validationMiddleware.js:67-78 | each optional check reports only when its field is present: the description message iff the trimmed description counts more than 500, the priority message iff the priority is not low, medium or high, and the due date message iff it is not ISO 8601, in that order |
| `Validation.TaskValidation` | middleware/validationMiddleware.js:61-81 | each of the five task messages is reported iff its check fails, title checks first, then description, priority and due date. Title and description arrive trimmed; priority and due date arrive untouched |
| `Validation.ObjectIdValidation` | middleware/validationMiddleware.js:86-96 | an id that is not a valid ObjectId yields exactly one "Invalid ID format" error; a valid one yields none |
| `Validation.ObjectIdGate` | middleware/validationMiddleware.js:86-96 | behind the id check, a handler runs on the unchanged id iff it is a valid ObjectId. Otherwise the request is refused with status 400 and the one id error |
| `Validation.Gate` | middleware/validationMiddleware.js:7-16 | the request is rejected with status 400, carrying the whole error list, iff any error was recorded. Otherwise the result is the handler's on the sanitized input |
| `Validation.GateIgnoresHandlerOnError` | middleware/validationMiddleware.js:9-14 | a rejected request never reaches the handler: any two handlers give the same 400 rejection |
| `Validation.BlankPasswordReportedTwice` | middleware/validationMiddleware.js:33-36 | an all-whitespace password yields exactly the "required" and the "at least 6 characters" errors, in that order |
| `Validation.PaddedTitleAccepted` | middleware/validationMiddleware.js:62-65 | whitespace padding around a title changes neither the errors reported nor the sanitized body, and is not stored |
| `Tasks.CreateTask` | controllers/taskController.js:9-19 | creation answers 201 iff the id is free. The new task is owned by the requester, whatever the body says. The title, description and due date are the body's; absent priority and completion take the defaults. The store gains exactly that task. A taken id is the translator's 400 duplicate reply and leaves the store unchanged |
| `Tasks.CreateIgnoresBodyOwner` | controllers/taskController.js:11 | the `user` field of the body has no effect on creation |
| `Tasks.Authorize` | controllers/taskController.js:84-99 | the access decision is Missing iff the id is absent, Foreign iff another user owns the task, and Owned iff the requester does |
| `Tasks.GetTask` | controllers/taskController.js:83-105 | 404 "Task not found" iff the id is absent; 403 "Not authorized to access this task" iff someone else owns it; otherwise 200 with the stored task. The store never changes |
| `Tasks.ApplyPatch` | controllers/taskController.js:130-133 | each of title, description, priority, completion, due date and `user` is the body's value when the body carries it and the stored value otherwise. The id and creation time are kept. An empty body changes nothing |
| `Tasks.ApplyPatchIdempotent` | controllers/taskController.js:130-133 | applying the same update twice is applying it once |
| `Tasks.UpdateTask` | controllers/taskController.js:112-139 | the same 404/403 decisions as get, with "update" in the message. A 200 comes exactly when the task exists and the requester owns it; then only the requester's task is rewritten, to the patched task, and every other entry is untouched |
| `Tasks.DeleteTask` | controllers/taskController.js:146-170 | the same 404/403 decisions, with "delete". The reply is 200 iff the requester owns the task, and then exactly that task leaves the store and the data is empty |
| `Tasks.MissingIsNotFoundForAnyone` | controllers/taskController.js:84-91 | an absent id is the same 404 for every requester and every operation, since absence is decided before ownership |
| `Tasks.RefusalsAgree` | controllers/taskController.js:83-128 | get, update and delete refuse the same requests with the same status, and update succeeds exactly when get does |
| `Tasks.DeleteThenGetIsNotFound` | controllers/taskController.js:146-170 | after a successful delete, getting that id is a 404 for everyone, never a 403 |
| `Tasks.UpdateThenGet` | controllers/taskController.js:130-138 | after a successful update, a get by the task's (possibly new) owner returns the patched task |
| `Tasks.UpdateCanTransferOwnership` | controllers/taskController.js:130-133 | an update naming another user as owner leaves the former owner with a 403 |
| `Tasks.CreateThenGet` | controllers/taskController.js:9-19 | after a successful create, the creator's get returns the created task |
| `Tasks.CreateThenDeleteRestores` | controllers/taskController.js:164 | deleting a just-created task as its creator restores the store |
| `Listing.FilterOf` | controllers/taskController.js:28-38 | the query always restricts to the requester. `completed` restricts iff it is a non-empty string, and then to true iff it is exactly "true". `priority` restricts iff it is a non-empty string |
| `Listing.Scan` | controllers/taskController.js:45-48 | the scan yields exactly the stored tasks the filter matches, each once. Its length is the number of matching ids, which is what `countDocuments` counts |
| `Listing.InsertByAge` | controllers/taskController.js:49 | inserting into a newest-first sequence keeps it newest first and adds exactly that task |
| `Listing.SortNewestFirst` | controllers/taskController.js:49 | the sort returns a permutation of its input, with creation times never increasing |
| `Listing.WindowOf` | controllers/taskController.js:41-42 | page and limit are the parsed parameters when those parse to non-zero numbers, and 1 and 10 otherwise; they are never 0 |
| `Listing.Paginate` | controllers/taskController.js:43-75 | a negative skip is refused. Otherwise the page is the slice of the ordered result starting at `(page-1)*limit`, of at most the absolute value of `limit` tasks, and `count` is its length. `next` is present iff `page*limit` is below the total and points at page+1; `prev` is present iff the skip is positive and points at page-1 |
| `Listing.PageSize` | controllers/taskController.js:43-51 | for positive page P and limit L over N tasks, the page holds `min(L, N-(P-1)L)` tasks, and none past the end |
| `Listing.DescriptorsMeanNeighbours` | controllers/taskController.js:56-68 | `next` appears iff tasks remain after this page, and `prev` iff this is not page 1 |
| `Listing.NextPageContinues` | controllers/taskController.js:56-61 | following `next` continues exactly where the page ended: the two pages together are the next `2L` tasks |
| `Listing.NegativePageSurvives` | controllers/taskController.js:41-43 | a negative page number survives the fallback to 1 unchanged, so with a positive limit the skip is negative and the query is refused |
| `Listing.ListTasks` | controllers/taskController.js:26-76 | the listing is the requester's matching tasks, newest first and as many as `countDocuments` counts, cut by `Paginate`. Every listed task belongs to the requester and meets the completion and priority filters |
| `Listing.SecondOfThree` | controllers/taskController.js:43-68 | over three tasks, page 2 of size 1 holds the middle task, with a next descriptor (page 3) and a prev descriptor (page 1) |
| `Stats.StrictOrderLex` | controllers/taskController.js:199 | sorting priority groups by `_id` uses a strict total order on strings |
| `Stats.CompletionGroups` | controllers/taskController.js:178-188 | the completion grouping is the group-by fold on the completion flag. Its groups hold exactly the tasks with each value, and a value's count is its number of tasks |
| `Stats.CompletionShape` | controllers/taskController.js:178-188 | the fold's completion entries are the reference shape: the `false` entry, then the `true` entry, each present only when inhabited. Entry counts sum to the number of tasks |
| `Stats.CompletionStats` | controllers/taskController.js:178-188 | completion stats are the `false` entry, then the `true` entry, each present iff some task has that value. Each counts that value's tasks and lists their title and priority in order. The counts sum to the number of tasks |
| `Stats.PriorityStats` | controllers/taskController.js:191-200 | priority entries strictly ascend in code-point order. A priority has an entry iff some task has it, and that entry counts exactly its tasks. The counts sum to the number of tasks |
| `Stats.GetTaskStats` | controllers/taskController.js:177-209 | both groupings fold over exactly the requester's stored tasks, each once (as many as the requester's stored task ids), and both totals equal that number |
| `Auth.LoadConfig` | config/config.js:5-10 | the environment name is `NODE_ENV` when non-empty, else "development". The cookie lifetime in days is the value `JWT_COOKIE_EXPIRE` parses to when that is a non-zero number, else 30 |
| `Auth.LoadConfigReadsDays` | config/config.js:10 | any non-zero day count written in decimal is taken as is |
| `Auth.FindByEmailUnique` | controllers/authController.js:15 | in a well-formed collection, `findOne({email})` finds the one account with that email |
| `Auth.SessionCookie` | controllers/authController.js:34-43 | the session cookie is named `token`, holds the token, and expires `days * 86400000` ms after now. It is always `httpOnly`, and `secure` iff the environment is "production" |
| `Auth.LogoutCookie` | controllers/authController.js:136-139 | the logout cookie holds "none", expires 10000 ms after now, is `httpOnly` and is never `secure` |
| `Auth.DefaultCookieLasts30Days` | controllers/authController.js:34-37 | with no configuration, the session cookie lasts 2592000000 ms (thirty days) and is not `secure` |
| `Auth.NullUserReply` | controllers/authController.js:116-124 | dereferencing a user lookup that returned nothing reaches the translator as a `TypeError`: a 500 carrying that error's message, with the store unchanged |
| `Auth.Register` | controllers/authController.js:11-55 | an existing email gives 400 "User already exists" with nothing written. A taken id gives the duplicate 400. Otherwise: 201, exactly one account appended (default role, sealed password), and a session with a token and cookie for the new id. Uniqueness of ids and emails is preserved |
| `Auth.Login` | controllers/authController.js:62-108 | the collection never changes. Login succeeds iff an account has that email and its stored hash matches the password, and then answers with a token and cookie for that account. Every failure is the same 401 "Invalid credentials" |
| `Auth.GetMe` | controllers/authController.js:115-128 | the requester's public fields and creation time, or the null-user 500 when the account is gone |
| `Auth.Logout` | controllers/authController.js:135-145 | 200 with the clearing cookie; the collection is unchanged |
| `Auth.OrElse` | controllers/authController.js:153-156 | a non-empty body value wins; an absent or empty one falls back to the current value |
| `Auth.UpdateProfile` | controllers/authController.js:152-172 | the requester's name and email become the body's non-empty values, else the current ones. Nothing else in the collection changes. An email held by another account is the duplicate 400 with nothing written. A missing account is the null-user 500 |
| `Auth.UpdatePassword` | controllers/authController.js:179-205 | a wrong current password gives 401 "Current password is incorrect" with nothing changed. Otherwise only the requester's stored hash becomes the seal of the new password, and a token signed for the same id is returned |
| `Auth.LoginFailuresIndistinguishable` | controllers/authController.js:66-81 | an unknown email and a wrong password for a known email produce the identical reply |
| `Auth.RegisterTwiceRejected` | controllers/authController.js:15-21 | after a successful registration, registering the same email again, with any id, name or password, is refused and changes nothing |
| `Auth.RegisterThenLogin` | controllers/authController.js:24-31 | with a hash that accepts its own password, a newly registered account logs in with its password and gets a token for its own id |
| `Auth.LoginRoute` | routes/authRoutes.js:16 | the login route answers 400 with the login chains' errors iff there are any. Otherwise the login controller runs on the trimmed password and the trimmed, normalized email |
| `Auth.SanitizedUpdatePassword` | controllers/authController.js:179-205 | the password change behind the trim sanitizer of the other account routes: the trimmed current password is checked, and the seal of the trimmed new password is stored |
| `Auth.PasswordChangeThenLogin` | controllers/authController.js:194-199 | after a password change, the new password logs in through the login route, and an old password that the new hash rejects is refused with 401 |
| `Auth.PaddedPasswordLockedOut` | routes/authRoutes.js:20 | as written, the password route seals the new password untrimmed while the login route compares its trimmed form, so a hash that tells them apart refuses every login with that password |
| `Auth.PaddedPasswordExample` | routes/authRoutes.js:16-20 | a concrete account whose password is changed to " secret1" and whose login with " secret1" is then refused with 401 |
| `Auth.UpdateProfileThenGetMe` | controllers/authController.js:152-171 | after a successful profile update, the current user is the account with name `body.name` or the old name, email `body.email` or the old email, and its own role and creation time |
| `Auth.WrongPasswordKeepsLogin` | controllers/authController.js:186-192 | a refused password change leaves every login outcome as it was |
| `Auth.LogoutKeepsLogins` | controllers/authController.js:135-145 | logging out changes no account, so every later login answers exactly as it would have without it |
| `Auth.RegisterThenGetMe` | controllers/authController.js:11-55 | after a successful registration, the current user of the new id is the registered name and email, the default role and the registration time |
| `Auth.EmptyProfileUpdateKeepsAccount` | controllers/authController.js:153-156 | a profile update with no name and an empty email rewrites the account with its own values |

## Findings

| source | as written | input that shows it | evidently intended | confidence | as-written member | corrected member |
|---|---|---|---|---|---|---|
| routes/authRoutes.js:20 | `PUT /password` runs no validation chain, so `updatePassword` seals `newPassword` untrimmed, while `POST /login` trims the password before comparing it | a password change to " secret1" followed by a login with " secret1": the hash of " secret1" is compared with "secret1" and the login is refused | the password the user set logs in, which holds once the password route trims like the login and registration routes | medium, not executed | `Auth.PaddedPasswordLockedOut` | `Auth.SanitizedUpdatePassword` |

## Left out

- I/O and wiring: the HTTP server, routing, rate limiting, CORS, logging,
  static files and the async wrapper are not modelled (server.js, routes/,
  utils/asyncHandler.js). Routing order is followed only in that validation
  runs before each handler.
- The authentication guard (`protect`, in middleware/authMiddleware.js) is
  not part of this model. Handlers receive the requester's id, or, for the
  profile update, the requester's record as the guard loaded it.
- Token signing, password hashing and password comparison are the
  uninterpreted parameters of `Auth.Crypto`. Nothing is assumed about them
  except where a lemma states its own requirement (a hash that accepts its
  own password).
- Email syntax, email normalisation, ISO 8601 dates and ObjectId syntax are
  the uninterpreted predicates and functions of `Validation.Oracles`.
- The Task and User schemas (models/Task.js, models/User.js) are not part of
  this model. The default priority is a parameter of `Tasks.CreateTask`, and
  `completed` defaults to false. The default role is "user". Schema
  validators run by `runValidators` on task and profile updates, and by
  `save()` on a password change, are not modelled.
- The clock is the parameter `now`; new task and user ids are parameters.
  An id that collides with a stored one is answered as the unique-index
  violation it would be.
- Query string values that are arrays or objects are not modelled: every
  parameter is an optional string.
- Tasks.CreateTask, Tasks.ApplyPatch: the source passes the whole request
  body to `Task.create` and `findByIdAndUpdate`. The model's bodies carry
  only the task's own fields, so keys such as `createdAt` or `_id` in a body
  are not modelled; whether the unseen Task schema lets them through decides
  what the database would store.
- Tasks.UpdateTask: on the update route the task validation chain runs
  first, so an update must carry a valid title. The model takes the update
  body after validation and does not repeat that requirement.
- Listing.Paginate: a negative skip is modelled as a refused query
  (`SkipRejected`), without the database's own error text or status. A
  negative limit is taken to return as many tasks as its absolute value.
- Listing.Scan: the database query becomes an in-memory scan in unspecified
  order. Only the sorted result matters, and ties in creation time are
  left in any order.
- Text.IntOr: `parseInt` is exact on unbounded integers, so precision loss
  beyond 2^53 is not modelled. Hexadecimal and exponent forms stop at the
  first non-digit, as `parseInt(s, 10)` does ("0x1A" reads as 0, "1e3" as 1).
- Auth.SessionCookie: the expiry is exact integer milliseconds, not a
  double-precision `Date`.
- Auth.Crypto: `sign` is a function of the user id alone. The issue time a
  JSON Web Token carries is not modelled, so the token a password change
  returns equals the one login returns for the same id.
- Auth.UpdatePassword: an absent current or new password, which makes the
  hashing library throw, is not modelled; both are strings.
- Stats.GetTaskStats: the statistics match on the requester's `_id` while
  the other task operations compare `id`. Both are the same `Id` here.
- Code-point string order is used for sorting priority groups. Collation
  settings of the database are not modelled.
- Trimming recognises the JavaScript whitespace set. No Unicode
  normalisation is modelled.
- Logging of errors to the console is left out.
- Auth.NullUserReply: the message "Cannot read properties of null
  (reading '…')" is the wording of the V8 engine in recent Node.js
  versions; other engines and older versions word the `TypeError`
  differently.
- Auth.SanitizedUpdatePassword: only the trim sanitizer is applied. The
  registration chain's presence and minimum-length checks on a new password
  are not applied there, because no route declares them for a password change.
- Validation.Gate: an error entry carries only the field and the message.
  The `value` (the sanitized input, such as a too-short password) and the
  `location` ("body" or "params") that each entry of the 400 body also
  carries are not modelled.
- Validation.OptionalErrors, Validation.TaskValidation: every body field
  is absent or a string. A JSON `null` is not skipped by `.optional()`, so
  `priority: null` and `dueDate: null` would be refused with their
  messages and `description: null` would be trimmed to "" and stored;
  these cases, and numbers, booleans or arrays sent as field values, are
  not modelled.

=== FILE: auth.dfy ===
/**
 * The account operations of controllers/authController.js (register,
 * login, current user, logout, profile update, password change) as
 * transitions over an in-memory user collection, together with the
 * configuration values they read (config/config.js).
 *
 * The collection is a sequence in insertion order; a lookup returns the
 * first match, as a query on the collection's natural order does. Password
 * hashing, password comparison and token signing are the parameters of
 * `Crypto`; the clock is the parameter `now` (milliseconds).
 */
module Auth {
  import opened Common
  import opened Text
  import ErrorMapping
  import Validation

  // ---------------------------------------------------------------------
  // Configuration

  /** The settings the account operations read. */
  datatype Config = Config(nodeEnv: string, jwtCookieExpire: int)

  const DefaultNodeEnv := "development"
  const DefaultCookieDays := 30

  /**
   * `NODE_ENV || 'development'` and `parseInt(JWT_COOKIE_EXPIRE, 10) || 30`,
   * from the two environment variables (absent is `None`).
   */
  function LoadConfig(nodeEnvVar: Option<string>, cookieExpireVar: Option<string>): (c: Config)
    ensures c.nodeEnv != ""
    ensures c.nodeEnv == DefaultNodeEnv <==> nodeEnvVar.None? || nodeEnvVar.value in {"", DefaultNodeEnv}
    ensures nodeEnvVar.Some? && nodeEnvVar.value != "" ==> c.nodeEnv == nodeEnvVar.value
    ensures c.jwtCookieExpire != 0
    ensures cookieExpireVar.Some? && Truthy(ParseInt(cookieExpireVar.value))
         ==> c.jwtCookieExpire == ParseInt(cookieExpireVar.value).value
    ensures cookieExpireVar.None? || !Truthy(ParseInt(cookieExpireVar.value)) ==> c.jwtCookieExpire == DefaultCookieDays
  {
    Config(
      if nodeEnvVar.Some? && nodeEnvVar.value != "" then nodeEnvVar.value else DefaultNodeEnv,
      IntOr(cookieExpireVar, DefaultCookieDays))
  }

  /** Any non-zero day count written in decimal is read back exactly. */
  lemma LoadConfigReadsDays(nodeEnvVar: Option<string>, days: int)
    requires days != 0
    ensures LoadConfig(nodeEnvVar, Some(Show(days))).jwtCookieExpire == days
  {
    ParseIntShow(days);
  }

  // ---------------------------------------------------------------------
  // Users and replies

  /** A stored account; `password` holds the sealed (hashed) password. */
  datatype User = User(id: Id, name: string, email: string, password: string, role: string, createdAt: int)

  /** The user collection in insertion order. */
  type UserStore = seq<User>

  /** The role a new account receives. */
  const DefaultRole := "user"

  /** Ids and emails are unique across the collection. */
  ghost predicate WellFormed(users: UserStore) {
    forall i, j :: 0 <= i < j < |users| ==> users[i].id != users[j].id && users[i].email != users[j].email
  }

  /** The foreign cryptography the operations call. */
  datatype Crypto = Crypto(
    seal: string -> string,            // the save hook's password hashing
    matches: (string, string) -> bool, // `matchPassword`: stored hash, candidate
    sign: Id -> string                 // `generateToken`
  )

  /** A `Set-Cookie` header: name, value, expiry instant and flags. */
  datatype Cookie = Cookie(name: string, value: string, expires: int, httpOnly: bool, secure: bool)

  /** The public fields of an account sent back to the client. */
  datatype UserView = UserView(id: Id, name: string, email: string, role: string)

  function View(u: User): (v: UserView)
    ensures v.id == u.id && v.name == u.name && v.email == u.email && v.role == u.role
  {
    UserView(u.id, u.name, u.email, u.role)
  }

  /** The success payloads; a session also sets its cookie. */
  datatype AuthData =
    | Session(token: string, user: UserView, cookie: Cookie)
    | Me(view: UserView, createdAt: int)
    | Cleared(cookie: Cookie)
    | Profile(view: UserView)
    | Reissued(token: string)

  type AuthReply = Reply<UserStore, AuthData>

  /** The first position whose element satisfies `p`. */
  function FirstWhere<T>(xs: seq<T>, p: T -> bool): (r: Option<nat>)
    ensures r.Some? ==> r.value < |xs| && p(xs[r.value]) && forall k :: 0 <= k < r.value ==> !p(xs[k])
    ensures r.None? <==> forall k :: 0 <= k < |xs| ==> !p(xs[k])
  {
    if |xs| == 0 then None
    else if p(xs[0]) then Some(0)
    else match FirstWhere(xs[1..], p)
      case None => None
      case Some(i) => Some(i + 1)
  }

  /** `findOne({email})`. */
  function FindByEmail(users: UserStore, email: string): (r: Option<nat>)
    ensures r.Some? ==> r.value < |users| && users[r.value].email == email
    ensures r.None? <==> forall k :: 0 <= k < |users| ==> users[k].email != email
  {
    FirstWhere(users, (u: User) => u.email == email)
  }

  /** `findById(id)`. */
  function FindById(users: UserStore, id: Id): (r: Option<nat>)
    ensures r.Some? ==> r.value < |users| && users[r.value].id == id
    ensures r.None? <==> forall k :: 0 <= k < |users| ==> users[k].id != id
  {
    FirstWhere(users, (u: User) => u.id == id)
  }

  /** In a well-formed collection the email lookup finds the one account with that email. */
  lemma FindByEmailUnique(users: UserStore, email: string, i: nat)
    requires WellFormed(users)
    requires i < |users| && users[i].email == email
    ensures FindByEmail(users, email) == Some(i)
  {
  }

  /** In a well-formed collection the id lookup finds the one account with that id. */
  lemma FindByIdUnique(users: UserStore, id: Id, i: nat)
    requires WellFormed(users)
    requires i < |users| && users[i].id == id
    ensures FindById(users, id) == Some(i)
  {
  }

  // ---------------------------------------------------------------------
  // Cookies

  const MillisPerDay := 24 * 60 * 60 * 1000
  const LogoutCookieMillis := 10 * 1000

  /** The session cookie set on register and login. */
  function SessionCookie(cfg: Config, now: int, token: string): (c: Cookie)
    ensures c.name == "token" && c.value == token
    ensures c.expires - now == cfg.jwtCookieExpire * 86400000
    ensures c.httpOnly
    ensures c.secure <==> cfg.nodeEnv == "production"
  {
    Cookie("token", token, now + cfg.jwtCookieExpire * MillisPerDay, true, cfg.nodeEnv == "production")
  }

  /** The cookie that replaces the session on logout: never `secure`, whatever the environment. */
  function LogoutCookie(now: int): (c: Cookie)
    ensures c.name == "token" && c.value == "none"
    ensures c.expires - now == 10000
    ensures c.httpOnly && !c.secure
  {
    Cookie("token", "none", now + LogoutCookieMillis, true, false)
  }

  /** The default configuration keeps a session cookie for thirty days. */
  lemma DefaultCookieLasts30Days(now: int, token: string)
    ensures SessionCookie(LoadConfig(None, None), now, token).expires == now + 2592000000
    ensures !SessionCookie(LoadConfig(None, None), now, token).secure
  {
  }

  // ---------------------------------------------------------------------
  // Failures raised by the database

  /** The reply for an insert or update that violates a unique index. */
  function DuplicateReply(users: UserStore): (r: AuthReply)
    ensures r == Reply(400, users, Error("Duplicate field value entered"))
  {
    var v := ErrorMapping.Classify(ErrorMapping.DuplicateKeyError());
    ErrorMapping.DuplicateKeyIs400(ErrorMapping.DuplicateKeyError());
    Reply(v.status, users, Error(v.message))
  }

  /** The `TypeError` of reading `prop` off a user lookup that returned `null`. */
  function NullUserError(prop: string): ErrorMapping.ErrorInfo {
    ErrorMapping.ErrorInfo("TypeError", None, "Cannot read properties of null (reading '" + prop + "')", None, [], None)
  }

  /** The reply when a handler dereferences a missing user: the translator's 500 with the `TypeError` message. */
  function NullUserReply(users: UserStore, prop: string): (r: AuthReply)
    ensures r.status == 500 && r.state == users
    ensures r.body == Error("Cannot read properties of null (reading '" + prop + "')")
  {
    var err := NullUserError(prop);
    ErrorMapping.UnmatchedKeepsOwnStatus(err);
    var v := ErrorMapping.Classify(err);
    Reply(v.status, users, Error(v.message))
  }

  // ---------------------------------------------------------------------
  // Register and login

  /**
   * `registerUser`, on the sanitized body: a taken email is refused before
   * anything is written; otherwise one account is appended, with the
   * default role and the sealed password, and a session is opened.
   */
  function Register(users: UserStore, id: Id, name: string, email: string, password: string,
                    now: int, cfg: Config, crypto: Crypto): (r: AuthReply)
    requires WellFormed(users)
    ensures WellFormed(r.state)
    ensures r.status == 201 || r.status == 400
    ensures r.status == 400 ==> r.state == users
    ensures (exists k :: 0 <= k < |users| && users[k].email == email) ==> r.body == Error("User already exists")
    ensures (forall k :: 0 <= k < |users| ==> users[k].email != email) && (exists k :: 0 <= k < |users| && users[k].id == id)
         ==> r == Reply(400, users, Error("Duplicate field value entered"))
    ensures r.status == 201 <==>
      (forall k :: 0 <= k < |users| ==> users[k].email != email && users[k].id != id)
    ensures r.status == 201 ==>
      && r.state == users + [User(id, name, email, crypto.seal(password), DefaultRole, now)]
      && r.body == Data(Session(crypto.sign(id), UserView(id, name, email, DefaultRole),
                                SessionCookie(cfg, now, crypto.sign(id))))
  {
    if FindByEmail(users, email).Some? then
      Reply(400, users, Error("User already exists"))
    else if FindById(users, id).Some? then
      DuplicateReply(users)
    else
      var u := User(id, name, email, crypto.seal(password), DefaultRole, now);
      var token := crypto.sign(id);
      Reply(201, users + [u], Data(Session(token, View(u), SessionCookie(cfg, now, token))))
  }

  /** The single refusal of `loginUser`, for an unknown email and a wrong password alike. */
  function InvalidCredentials(users: UserStore): AuthReply {
    Reply(401, users, Error("Invalid credentials"))
  }

  /** `loginUser`, on the sanitized body: never changes the collection. */
  function Login(users: UserStore, email: string, password: string, now: int, cfg: Config, crypto: Crypto): (r: AuthReply)
    requires WellFormed(users)
    ensures r.state == users
    ensures r.status == 200 || r == InvalidCredentials(users)
    ensures r.status == 200 <==>
      exists k :: 0 <= k < |users| && users[k].email == email && crypto.matches(users[k].password, password)
    ensures forall k :: 0 <= k < |users| && users[k].email == email && crypto.matches(users[k].password, password) ==>
      r.body == Data(Session(crypto.sign(users[k].id), View(users[k]), SessionCookie(cfg, now, crypto.sign(users[k].id))))
  {
    match FindByEmail(users, email)
    case None => InvalidCredentials(users)
    case Some(i) =>
      FindByEmailAll(users, email, i);
      if !crypto.matches(users[i].password, password) then InvalidCredentials(users)
      else
        var token := crypto.sign(users[i].id);
        Reply(200, users, Data(Session(token, View(users[i]), SessionCookie(cfg, now, token))))
  }

  /**
   * `POST /login`: the login chains run first, and the controller sees the
   * trimmed password and the trimmed, normalized email.
   */
  function LoginRoute(users: UserStore, o: Validation.Oracles, b: Validation.Credentials,
                      now: int, cfg: Config, crypto: Crypto): (g: Validation.Gated<AuthReply>)
    requires WellFormed(users)
    ensures g.Rejected? <==> Validation.LoginValidation(o, b).errors != []
    ensures g.Rejected? ==> g.status == 400 && g.errors == Validation.LoginValidation(o, b).errors
    ensures g.Passed? ==> g.result == Login(users, o.normalizeEmail(Trim(b.email)), Trim(b.password), now, cfg, crypto)
  {
    Validation.Gate(Validation.LoginValidation(o, b),
      (c: Validation.Credentials) => Login(users, c.email, c.password, now, cfg, crypto))
  }

  /** Every account with the looked-up email is the one the lookup found. */
  lemma FindByEmailAll(users: UserStore, email: string, i: nat)
    requires WellFormed(users)
    requires FindByEmail(users, email) == Some(i)
    ensures forall k :: 0 <= k < |users| && users[k].email == email ==> k == i
  {
    forall k | 0 <= k < |users| && users[k].email == email
      ensures k == i
    {
      FindByEmailUnique(users, email, k);
    }
  }

  // ---------------------------------------------------------------------
  // Operations on the signed-in user

  /** `getMe`: the requester's public fields and creation time. */
  function GetMe(users: UserStore, requester: Id): (r: AuthReply)
    requires WellFormed(users)
    ensures r.state == users
    ensures forall k :: 0 <= k < |users| && users[k].id == requester ==>
      r == Reply(200, users, Data(Me(View(users[k]), users[k].createdAt)))
    ensures (forall k :: 0 <= k < |users| ==> users[k].id != requester) ==> r == NullUserReply(users, "_id")
  {
    match FindById(users, requester)
    case None => NullUserReply(users, "_id")
    case Some(i) =>
      FindByIdAll(users, requester, i);
      Reply(200, users, Data(Me(View(users[i]), users[i].createdAt)))
  }

  lemma FindByIdAll(users: UserStore, id: Id, i: nat)
    requires WellFormed(users)
    requires FindById(users, id) == Some(i)
    ensures forall k :: 0 <= k < |users| && users[k].id == id ==> k == i
  {
    forall k | 0 <= k < |users| && users[k].id == id
      ensures k == i
    {
      FindByIdUnique(users, id, k);
    }
  }

  /** `logoutUser`: replaces the cookie and touches nothing else. */
  function Logout(users: UserStore, now: int): (r: AuthReply)
    ensures r.state == users
    ensures r.status == 200
    ensures r.body.Data? && r.body.data.Cleared?
    ensures r.body.data.cookie.value == "none" && r.body.data.cookie.expires == now + 10000
  {
    Reply(200, users, Data(Cleared(LogoutCookie(now))))
  }

  /** JavaScript's `value || fallback` on an optional string: absent and empty fall back. */
  function OrElse(value: Option<string>, fallback: string): (r: string)
    ensures value.Some? && value.value != "" ==> r == value.value
    ensures value.None? || value.value == "" ==> r == fallback
  {
    if value.Some? && value.value != "" then value.value else fallback
  }

  /**
   * `updateUser`: `me` is the requester as loaded when the request was
   * authenticated; name and email come from the body when non-empty and
   * from `me` otherwise. An email held by another account violates the
   * unique index.
   */
  function UpdateProfile(users: UserStore, me: User, name: Option<string>, email: Option<string>): (r: AuthReply)
    requires WellFormed(users)
    ensures WellFormed(r.state)
    ensures r.status != 200 ==> r.state == users
    ensures (forall k :: 0 <= k < |users| ==> users[k].id != me.id) ==> r == NullUserReply(users, "_id")
    ensures forall k :: 0 <= k < |users| && users[k].id == me.id ==>
      var e := OrElse(email, me.email);
      if exists j :: 0 <= j < |users| && j != k && users[j].email == e then
        r == DuplicateReply(users)
      else
        var u := users[k].(name := OrElse(name, me.name), email := e);
        r == Reply(200, users[k := u], Data(Profile(View(u))))
  {
    match FindById(users, me.id)
    case None => NullUserReply(users, "_id")
    case Some(i) =>
      FindByIdAll(users, me.id, i);
      var e := OrElse(email, me.email);
      var clash := FirstWhere(users, (v: User) => v.email == e && v.id != me.id);
      if clash.Some? then
        DuplicateReply(users)
      else
        var u := users[i].(name := OrElse(name, me.name), email := e);
        assert forall j :: 0 <= j < |users| && j != i ==> users[j].id != me.id;
        Reply(200, users[i := u], Data(Profile(View(u))))
  }

  /**
   * `updatePassword`: the current password must match the stored hash;
   * then the new password is sealed and stored and a token for the same id
   * is signed again.
   */
  function UpdatePassword(users: UserStore, requester: Id, current: string, newPassword: string, crypto: Crypto): (r: AuthReply)
    requires WellFormed(users)
    ensures WellFormed(r.state)
    ensures r.status != 200 ==> r.state == users
    ensures (forall k :: 0 <= k < |users| ==> users[k].id != requester) ==> r == NullUserReply(users, "matchPassword")
    ensures forall k :: 0 <= k < |users| && users[k].id == requester ==>
      if crypto.matches(users[k].password, current) then
        r == Reply(200, users[k := users[k].(password := crypto.seal(newPassword))], Data(Reissued(crypto.sign(requester))))
      else
        r == Reply(401, users, Error("Current password is incorrect"))
  {
    match FindById(users, requester)
    case None => NullUserReply(users, "matchPassword")
    case Some(i) =>
      FindByIdAll(users, requester, i);
      if !crypto.matches(users[i].password, current) then
        Reply(401, users, Error("Current password is incorrect"))
      else
        Reply(200, users[i := users[i].(password := crypto.seal(newPassword))], Data(Reissued(crypto.sign(requester))))
  }

  /**
   * `updatePassword` behind the sanitizer the login route applies: both
   * passwords trimmed before they are compared and sealed. `PUT /password`
   * runs no validation chain, so the controller as written stores the new
   * password untrimmed (see `PaddedPasswordLockedOut`).
   */
  function SanitizedUpdatePassword(users: UserStore, requester: Id, current: string, newPassword: string, crypto: Crypto): (r: AuthReply)
    requires WellFormed(users)
    ensures WellFormed(r.state)
    ensures r.status != 200 ==> r.state == users
    ensures forall k :: 0 <= k < |users| && users[k].id == requester ==>
      if crypto.matches(users[k].password, Trim(current)) then
        r == Reply(200, users[k := users[k].(password := crypto.seal(Trim(newPassword)))], Data(Reissued(crypto.sign(requester))))
      else
        r == Reply(401, users, Error("Current password is incorrect"))
  {
    UpdatePassword(users, requester, Trim(current), Trim(newPassword), crypto)
  }

  // ---------------------------------------------------------------------
  // Properties across operations

  /** A failed login says nothing about why it failed: the two refusals are the same reply. */
  lemma LoginFailuresIndistinguishable(users: UserStore, unknown: string, known: string, wrong: string,
                                       now: int, cfg: Config, crypto: Crypto)
    requires WellFormed(users)
    requires forall k :: 0 <= k < |users| ==> users[k].email != unknown
    requires exists k :: 0 <= k < |users| && users[k].email == known && !crypto.matches(users[k].password, wrong)
    ensures Login(users, unknown, wrong, now, cfg, crypto) == Login(users, known, wrong, now, cfg, crypto)
         == InvalidCredentials(users)
  {
    var k :| 0 <= k < |users| && users[k].email == known && !crypto.matches(users[k].password, wrong);
    FindByEmailUnique(users, known, k);
  }

  /** A second registration with the same email is refused and changes nothing, whatever the other fields. */
  lemma RegisterTwiceRejected(users: UserStore, id: Id, name: string, email: string, password: string,
                              id2: Id, name2: string, password2: string, now: int, now2: int, cfg: Config, crypto: Crypto)
    requires WellFormed(users)
    requires Register(users, id, name, email, password, now, cfg, crypto).status == 201
    ensures var s := Register(users, id, name, email, password, now, cfg, crypto).state;
      Register(s, id2, name2, email, password2, now2, cfg, crypto) == Reply(400, s, Error("User already exists"))
  {
    var s := Register(users, id, name, email, password, now, cfg, crypto).state;
    assert s[|users|].email == email;
  }

  /** With a hash that accepts its own password, a new account can log straight in and gets a token for its id. */
  lemma RegisterThenLogin(users: UserStore, id: Id, name: string, email: string, password: string,
                          now: int, later: int, cfg: Config, crypto: Crypto)
    requires WellFormed(users)
    requires Register(users, id, name, email, password, now, cfg, crypto).status == 201
    requires crypto.matches(crypto.seal(password), password)
    ensures var s := Register(users, id, name, email, password, now, cfg, crypto).state;
      var r := Login(s, email, password, later, cfg, crypto);
      r.status == 200 && r.body.Data? && r.body.data.Session? && r.body.data.token == crypto.sign(id)
  {
    var s := Register(users, id, name, email, password, now, cfg, crypto).state;
    FindByEmailUnique(s, email, |users|);
  }

  /**
   * After a password change, the new password logs in through the login
   * route, and an old password the new hash rejects no longer does.
   */
  lemma PasswordChangeThenLogin(users: UserStore, requester: Id, current: string, newPassword: string, previous: string,
                                o: Validation.Oracles, email: string, now: int, cfg: Config, crypto: Crypto, k: nat)
    requires WellFormed(users)
    requires k < |users| && users[k].id == requester
    requires SanitizedUpdatePassword(users, requester, current, newPassword, crypto).status == 200
    requires o.normalizeEmail(Trim(email)) == users[k].email
    requires crypto.matches(crypto.seal(Trim(newPassword)), Trim(newPassword))
    requires !crypto.matches(crypto.seal(Trim(newPassword)), Trim(previous))
    ensures var s := SanitizedUpdatePassword(users, requester, current, newPassword, crypto).state;
      && (Validation.LoginValidation(o, Validation.Credentials(email, newPassword)).errors == [] ==>
            var g := LoginRoute(s, o, Validation.Credentials(email, newPassword), now, cfg, crypto);
            g.Passed? && g.result.status == 200)
      && (Validation.LoginValidation(o, Validation.Credentials(email, previous)).errors == [] ==>
            LoginRoute(s, o, Validation.Credentials(email, previous), now, cfg, crypto) == Validation.Passed(InvalidCredentials(s)))
  {
    var s := SanitizedUpdatePassword(users, requester, current, newPassword, crypto).state;
    assert s[k].email == users[k].email;
    FindByEmailUnique(s, users[k].email, k);
  }

  /**
   * The controller as written: a new password sent with surrounding
   * whitespace is sealed as sent, but the login route compares its trimmed
   * form, so a hash that tells the two apart locks the account out.
   */
  lemma PaddedPasswordLockedOut(users: UserStore, requester: Id, current: string, newPassword: string,
                                o: Validation.Oracles, email: string, now: int, cfg: Config, crypto: Crypto, k: nat)
    requires WellFormed(users)
    requires k < |users| && users[k].id == requester
    requires crypto.matches(users[k].password, current)
    requires o.normalizeEmail(Trim(email)) == users[k].email
    requires !crypto.matches(crypto.seal(newPassword), Trim(newPassword))
    ensures var s := UpdatePassword(users, requester, current, newPassword, crypto).state;
      var c := Validation.LoginValidation(o, Validation.Credentials(email, newPassword));
      LoginRoute(s, o, Validation.Credentials(email, newPassword), now, cfg, crypto)
        == if c.errors == [] then Validation.Passed(InvalidCredentials(s)) else Validation.Rejected(400, c.errors)
  {
    var s := UpdatePassword(users, requester, current, newPassword, crypto).state;
    assert s[k].email == users[k].email;
    FindByEmailUnique(s, users[k].email, k);
  }

  /** A hash that is the identity and a comparison that is equality: enough to tell padded passwords apart. */
  function PlainCrypto(): Crypto {
    Crypto((p: string) => p, (h: string, p: string) => h == p, (id: Id) => "token:" + id)
  }

  /**
   * A concrete lockout: Ann changes her password to " secret1" and then
   * cannot log in with " secret1", which the login route trims to "secret1".
   */
  lemma PaddedPasswordExample(o: Validation.Oracles)
    requires o.isEmail("ann@example.com") && o.normalizeEmail("ann@example.com") == "ann@example.com"
    ensures var users := [User("u1", "Ann", "ann@example.com", "oldpass1", DefaultRole, 0)];
      var s := UpdatePassword(users, "u1", "oldpass1", " secret1", PlainCrypto()).state;
      && UpdatePassword(users, "u1", "oldpass1", " secret1", PlainCrypto()).status == 200
      && LoginRoute(s, o, Validation.Credentials("ann@example.com", " secret1"), 0, Config("production", 30), PlainCrypto())
           == Validation.Passed(InvalidCredentials(s))
  {
    var users := [User("u1", "Ann", "ann@example.com", "oldpass1", DefaultRole, 0)];
    var email := "ann@example.com";
    Validation.TrimKeepsTrimmed(email);
    Validation.TrimStartPadded(" ", "secret1");
    assert " " + "secret1" == " secret1";
    Validation.TrimKeepsTrimmed("secret1");
    assert Trim(" secret1") == "secret1";
    PaddedPasswordLockedOut(users, "u1", "oldpass1", " secret1", o, email, 0, Config("production", 30), PlainCrypto(), 0);
  }

  /** A wrong current password leaves every stored hash as it was, so the old password still logs in. */
  lemma WrongPasswordKeepsLogin(users: UserStore, requester: Id, current: string, newPassword: string, password: string,
                                now: int, cfg: Config, crypto: Crypto, k: nat)
    requires WellFormed(users)
    requires k < |users| && users[k].id == requester
    requires !crypto.matches(users[k].password, current)
    ensures var s := UpdatePassword(users, requester, current, newPassword, crypto).state;
      Login(s, users[k].email, password, now, cfg, crypto) == Login(users, users[k].email, password, now, cfg, crypto)
  {
  }

  /** A profile update with nothing to change rewrites the account with its own values. */
  lemma EmptyProfileUpdateKeepsAccount(users: UserStore, k: nat)
    requires WellFormed(users)
    requires k < |users|
    ensures UpdateProfile(users, users[k], None, Some("")) == Reply(200, users, Data(Profile(View(users[k]))))
  {
    assert users[k := users[k]] == users;
  }

  /** After a profile update, the current user is the account with the new name and email and its own role and creation time. */
  lemma UpdateProfileThenGetMe(users: UserStore, me: User, name: Option<string>, email: Option<string>, k: nat)
    requires WellFormed(users)
    requires k < |users| && users[k].id == me.id
    requires UpdateProfile(users, me, name, email).status == 200
    ensures var s := UpdateProfile(users, me, name, email).state;
      GetMe(s, me.id) == Reply(200, s, Data(Me(UserView(me.id, OrElse(name, me.name), OrElse(email, me.email), users[k].role),
                                               users[k].createdAt)))
  {
    var s := UpdateProfile(users, me, name, email).state;
    assert s[k].id == me.id;
  }

  /** Logging out touches no account: every later login answers as it would have without it. */
  lemma LogoutKeepsLogins(users: UserStore, now: int, email: string, password: string, later: int, cfg: Config, crypto: Crypto)
    requires WellFormed(users)
    ensures Logout(users, now).state == users
    ensures Login(Logout(users, now).state, email, password, later, cfg, crypto) == Login(users, email, password, later, cfg, crypto)
  {
  }

  /** A newly registered account is the current user of its id: its name, email, the default role and its creation time. */
  lemma RegisterThenGetMe(users: UserStore, id: Id, name: string, email: string, password: string,
                          now: int, cfg: Config, crypto: Crypto)
    requires WellFormed(users)
    requires Register(users, id, name, email, password, now, cfg, crypto).status == 201
    ensures var s := Register(users, id, name, email, password, now, cfg, crypto).state;
      GetMe(s, id) == Reply(200, s, Data(Me(UserView(id, name, email, DefaultRole), now)))
  {
    var s := Register(users, id, name, email, password, now, cfg, crypto).state;
    assert s[|users|].id == id;
  }
}

=== FILE: common.dfy ===
/**
 * Shared vocabulary of the model: optional values, identifiers and the
 * JSON envelope every controller answers with.
 */
module Common {

  /** A value that may be absent (a missing body field or query parameter). */
  datatype Option<+T> = None | Some(value: T) {

    /** The value if present, else `default` (the `??` of a schema default). */
    function GetOr(default: T): T {
      match this
      case Some(v) => v
      case None => default
    }
  }

  /** Document identifiers (Mongo ObjectIds rendered as strings). */
  type Id = string

  /**
   * The response envelope: `{success: true, data}` or
   * `{success: false, error: message}`.
   */
  datatype Body<+D> = Data(data: D) | Error(message: string)

  /** An HTTP status and body, paired with the store as it is after the request. */
  datatype Reply<+S, +D> = Reply(status: int, state: S, body: Body<D>)
}

=== FILE: errors.dfy ===
/**
 * The central error translator (middleware/errorMiddleware.js): a pure
 * function from a thrown error and the environment name to the status,
 * message and stack of the `{success: false, ...}` reply.
 */
module ErrorMapping {
  import opened Common

  /** The parts of a thrown error the translator reads. */
  datatype ErrorInfo = ErrorInfo(
    name: string,                // `err.name`
    code: Option<int>,           // `err.code`, set on database driver errors
    message: string,             // `err.message`
    statusCode: Option<int>,     // an own `statusCode` property, if any
    fieldMessages: seq<string>,  // the messages of `err.errors`, in order
    stack: Option<string>        // `err.stack`
  )

  /** The five rewrite rules, in the order the translator tries them. */
  datatype Rule = BadObjectId | DuplicateKey | SchemaValidation | BadToken | ExpiredToken

  const Rules: seq<Rule> := [BadObjectId, DuplicateKey, SchemaValidation, BadToken, ExpiredToken]

  const DuplicateKeyCode := 11000

  /** The stack string sent in production instead of the real stack. */
  const StackSentinel := "\U{1F95E}"

  /** Whether `rule`'s condition holds of the original error. */
  predicate Fires(rule: Rule, err: ErrorInfo) {
    match rule
    case BadObjectId => err.name == "CastError"
    case DuplicateKey => err.code == Some(DuplicateKeyCode)
    case SchemaValidation => err.name == "ValidationError"
    case BadToken => err.name == "JsonWebTokenError"
    case ExpiredToken => err.name == "TokenExpiredError"
  }

  /** The working copy the translator rewrites: a status code and a message. */
  datatype Draft = Draft(statusCode: Option<int>, message: string)

  /** `messages.join(sep)`. */
  function Join(messages: seq<string>, sep: string): string {
    if |messages| == 0 then ""
    else if |messages| == 1 then messages[0]
    else messages[0] + sep + Join(messages[1..], sep)
  }

  /** The fresh error a firing rule replaces the working copy with. */
  function Rewrite(rule: Rule, err: ErrorInfo): Draft {
    match rule
    case BadObjectId => Draft(Some(404), "Resource not found")
    case DuplicateKey => Draft(Some(400), "Duplicate field value entered")
    case SchemaValidation => Draft(Some(400), Join(err.fieldMessages, ", "))
    case BadToken => Draft(Some(401), "Invalid token. Please log in again.")
    case ExpiredToken => Draft(Some(401), "Your token has expired. Please log in again.")
  }

  /** The translator's sequence of `if` statements: each firing rule overwrites the working copy. */
  function RunRules(rules: seq<Rule>, err: ErrorInfo, acc: Draft): Draft {
    if |rules| == 0 then acc
    else RunRules(rules[1..], err, if Fires(rules[0], err) then Rewrite(rules[0], err) else acc)
  }

  /** Reference definition: the last rule of `rules` that fires, if any. */
  function LastFiring(rules: seq<Rule>, err: ErrorInfo): Option<Rule> {
    if |rules| == 0 then None
    else if LastFiring(rules[1..], err).Some? then LastFiring(rules[1..], err)
    else if Fires(rules[0], err) then Some(rules[0])
    else None
  }

  /** Running the rules in sequence amounts to applying the last one that fires. */
  lemma {:induction false} RunRulesIsLastFiring(rules: seq<Rule>, err: ErrorInfo, acc: Draft)
    ensures RunRules(rules, err, acc)
         == match LastFiring(rules, err) case None => acc case Some(rule) => Rewrite(rule, err)
  {
    if |rules| > 0 {
      var acc' := if Fires(rules[0], err) then Rewrite(rules[0], err) else acc;
      RunRulesIsLastFiring(rules[1..], err, acc');
    }
  }

  /** Status and message of the reply. */
  datatype Verdict = Verdict(status: int, message: string)

  /** `error.statusCode || 500` and `error.message || 'Server Error'` over the rewritten copy. */
  function Classify(err: ErrorInfo): (v: Verdict)
    ensures v.message != ""
    ensures v.status != 0
    ensures match LastFiring(Rules, err)
      case None =>
        && v.status == (if err.statusCode.Some? && err.statusCode.value != 0 then err.statusCode.value else 500)
        && v.message == (if err.message != "" then err.message else "Server Error")
      case Some(rule) =>
        && Some(v.status) == Rewrite(rule, err).statusCode
        && v.message == (if Rewrite(rule, err).message != "" then Rewrite(rule, err).message else "Server Error")
  {
    var d := RunRules(Rules, err, Draft(err.statusCode, err.message));
    RunRulesIsLastFiring(Rules, err, Draft(err.statusCode, err.message));
    Verdict(
      if d.statusCode.Some? && d.statusCode.value != 0 then d.statusCode.value else 500,
      if d.message != "" then d.message else "Server Error")
  }

  /** The JSON reply `{success, error, stack}` with its status. */
  datatype ErrorReply = ErrorReply(status: int, success: bool, error: string, stack: Option<string>)

  /** The translator as a whole. */
  function Respond(err: ErrorInfo, nodeEnv: string): (r: ErrorReply)
    ensures !r.success
    ensures r.status == Classify(err).status && r.error == Classify(err).message
    ensures nodeEnv == "production" ==> r.stack == Some(StackSentinel)
    ensures nodeEnv != "production" ==> r.stack == err.stack
  {
    var v := Classify(err);
    ErrorReply(v.status, false, v.message, if nodeEnv == "production" then Some(StackSentinel) else err.stack)
  }

  /** A duplicate-key error as the database driver raises it for a unique index. */
  function DuplicateKeyError(): ErrorInfo {
    ErrorInfo("MongoServerError", Some(DuplicateKeyCode), "E11000 duplicate key error", None, [], None)
  }

  // ---------------------------------------------------------------------
  // The individual mappings

  /** The last firing rule of the translator's list, read from the back. */
  lemma LastFiringOfRules(err: ErrorInfo)
    ensures LastFiring(Rules, err)
         == if Fires(ExpiredToken, err) then Some(ExpiredToken)
            else if Fires(BadToken, err) then Some(BadToken)
            else if Fires(SchemaValidation, err) then Some(SchemaValidation)
            else if Fires(DuplicateKey, err) then Some(DuplicateKey)
            else if Fires(BadObjectId, err) then Some(BadObjectId)
            else None
  {
    var l5 := LastFiring([ExpiredToken], err);
    var none: seq<Rule> := [];
    assert [ExpiredToken][1..] == none;
    assert LastFiring(none, err) == None;
    assert l5 == if Fires(ExpiredToken, err) then Some(ExpiredToken) else None;
    var l4 := LastFiring([BadToken, ExpiredToken], err);
    assert [BadToken, ExpiredToken][1..] == [ExpiredToken];
    assert l4 == if l5.Some? then l5 else if Fires(BadToken, err) then Some(BadToken) else None;
    var l3 := LastFiring([SchemaValidation, BadToken, ExpiredToken], err);
    assert [SchemaValidation, BadToken, ExpiredToken][1..] == [BadToken, ExpiredToken];
    assert l3 == if l4.Some? then l4 else if Fires(SchemaValidation, err) then Some(SchemaValidation) else None;
    var l2 := LastFiring([DuplicateKey, SchemaValidation, BadToken, ExpiredToken], err);
    assert [DuplicateKey, SchemaValidation, BadToken, ExpiredToken][1..] == [SchemaValidation, BadToken, ExpiredToken];
    assert l2 == if l3.Some? then l3 else if Fires(DuplicateKey, err) then Some(DuplicateKey) else None;
    assert Rules[1..] == [DuplicateKey, SchemaValidation, BadToken, ExpiredToken];
  }

  /** An invalid ObjectId cast is reported as a missing resource, unless it also carries the duplicate-key code. */
  lemma CastErrorIsNotFound(err: ErrorInfo)
    requires err.name == "CastError" && err.code != Some(DuplicateKeyCode)
    ensures Classify(err) == Verdict(404, "Resource not found")
  {
    LastFiringOfRules(err);
  }

  /** Code 11000 is a 400, whatever the error's own status, unless a later rule fires too. */
  lemma DuplicateKeyIs400(err: ErrorInfo)
    requires err.code == Some(DuplicateKeyCode)
    requires err.name !in {"ValidationError", "JsonWebTokenError", "TokenExpiredError"}
    ensures Classify(err) == Verdict(400, "Duplicate field value entered")
  {
    LastFiringOfRules(err);
  }

  /** A schema validation error is a 400 carrying its field messages joined by ", ". */
  lemma ValidationErrorJoinsMessages(err: ErrorInfo)
    requires err.name == "ValidationError"
    ensures Classify(err).status == 400
    ensures Join(err.fieldMessages, ", ") != "" ==> Classify(err).message == Join(err.fieldMessages, ", ")
    ensures Join(err.fieldMessages, ", ") == "" ==> Classify(err).message == "Server Error"
  {
    LastFiringOfRules(err);
  }

  /** Both token errors are 401s with their fixed messages. */
  lemma TokenErrorsAre401(err: ErrorInfo)
    requires err.name in {"JsonWebTokenError", "TokenExpiredError"}
    ensures Classify(err).status == 401
    ensures err.name == "JsonWebTokenError" ==> Classify(err).message == "Invalid token. Please log in again."
    ensures err.name == "TokenExpiredError" ==> Classify(err).message == "Your token has expired. Please log in again."
  {
    LastFiringOfRules(err);
  }

  /** Later checks override earlier ones: a cast error carrying code 11000 is a 400, not a 404. */
  lemma LaterRuleWins(err: ErrorInfo)
    requires err.name == "CastError" && err.code == Some(DuplicateKeyCode)
    ensures Classify(err) == Verdict(400, "Duplicate field value entered")
  {
    LastFiringOfRules(err);
  }

  /** With no rule firing, the error's own non-zero status is kept, else 500. */
  lemma UnmatchedKeepsOwnStatus(err: ErrorInfo)
    requires forall rule :: rule in Rules ==> !Fires(rule, err)
    ensures Classify(err).status == (if err.statusCode.Some? && err.statusCode.value != 0 then err.statusCode.value else 500)
    ensures Classify(err).message == (if err.message != "" then err.message else "Server Error")
  {
    assert !Fires(Rules[0], err) && !Fires(Rules[1], err) && !Fires(Rules[2], err);
    assert !Fires(Rules[3], err) && !Fires(Rules[4], err);
    LastFiringOfRules(err);
  }
}

=== FILE: grouping.dfy ===
/**
 * An in-memory stand-in for a `$group` stage followed by `$sort: {_id: 1}`:
 * a left fold that files each element into the group of its key, keeping
 * the groups ordered by key and each group's members in input order.
 */
module Grouping {

  /** One group: its key and the elements filed under it, in input order. */
  datatype Group<K, V> = Group(key: K, members: seq<V>)

  /** `lt` is a strict total order on `K`. */
  ghost predicate StrictOrder<K(!new)>(lt: (K, K) -> bool) {
    && (forall x :: !lt(x, x))
    && (forall x, y, z :: lt(x, y) && lt(y, z) ==> lt(x, z))
    && (forall x, y :: x != y ==> lt(x, y) || lt(y, x))
  }

  /** Group keys strictly ascend, so no key has two groups. */
  ghost predicate Ascending<K, V>(gs: seq<Group<K, V>>, lt: (K, K) -> bool) {
    forall i, j :: 0 <= i < j < |gs| ==> lt(gs[i].key, gs[j].key)
  }

  /** No group is empty. */
  ghost predicate Inhabited<K, V>(gs: seq<Group<K, V>>) {
    forall i :: 0 <= i < |gs| ==> |gs[i].members| > 0
  }

  /** Reference definition: the elements of `xs` whose key is `k`, in order. */
  function Select<K(==), V>(xs: seq<V>, key: V -> K, k: K): seq<V> {
    if |xs| == 0 then []
    else Select(xs[..|xs| - 1], key, k) + (if key(xs[|xs| - 1]) == k then [xs[|xs| - 1]] else [])
  }

  /** The members of the first group with key `k`, or nothing. */
  function Find<K(==), V>(gs: seq<Group<K, V>>, k: K): seq<V> {
    if |gs| == 0 then []
    else if gs[0].key == k then gs[0].members
    else Find(gs[1..], k)
  }

  /** Total number of elements over all groups. */
  function Size<K, V>(gs: seq<Group<K, V>>): nat {
    if |gs| == 0 then 0 else |gs[0].members| + Size(gs[1..])
  }

  /** Files `v` under key `k`: appended to its group, or a new group at its place in key order. */
  function Insert<K(==), V>(gs: seq<Group<K, V>>, k: K, v: V, lt: (K, K) -> bool): seq<Group<K, V>> {
    if |gs| == 0 then [Group(k, [v])]
    else if gs[0].key == k then [Group(k, gs[0].members + [v])] + gs[1..]
    else if lt(k, gs[0].key) then [Group(k, [v])] + gs
    else [gs[0]] + Insert(gs[1..], k, v, lt)
  }

  /** Groups `xs` by `key`, one element at a time from the left. */
  function GroupBy<K(==), V>(xs: seq<V>, key: V -> K, lt: (K, K) -> bool): seq<Group<K, V>> {
    if |xs| == 0 then []
    else Insert(GroupBy(xs[..|xs| - 1], key, lt), key(xs[|xs| - 1]), xs[|xs| - 1], lt)
  }

  // ---------------------------------------------------------------------
  // What one insertion does

  /** Inserting keeps the groups non-empty and adds exactly one element. */
  lemma {:induction false} InsertSize<K, V>(gs: seq<Group<K, V>>, k: K, v: V, lt: (K, K) -> bool)
    requires Inhabited(gs)
    ensures var r := Insert(gs, k, v, lt); Inhabited(r) && Size(r) == Size(gs) + 1
  {
    var r := Insert(gs, k, v, lt);
    if |gs| == 0 {
    } else if gs[0].key == k {
      assert r[1..] == gs[1..];
    } else if lt(k, gs[0].key) {
      assert r[1..] == gs;
    } else {
      InsertSize(gs[1..], k, v, lt);
      assert r[1..] == Insert(gs[1..], k, v, lt);
    }
  }

  /** Inserting keeps the keys strictly ascending; the new first key is `k` or the old first key. */
  lemma {:induction false} InsertAscending<K(!new), V>(gs: seq<Group<K, V>>, k: K, v: V, lt: (K, K) -> bool)
    requires StrictOrder(lt) && Ascending(gs, lt)
    ensures var r := Insert(gs, k, v, lt);
      && Ascending(r, lt) && |r| > 0 && (r[0].key == k || (|gs| > 0 && r[0].key == gs[0].key))
  {
    var r := Insert(gs, k, v, lt);
    if |gs| == 0 {
    } else if gs[0].key == k {
      assert r[1..] == gs[1..];
    } else if lt(k, gs[0].key) {
      assert r[1..] == gs;
    } else {
      var rest := Insert(gs[1..], k, v, lt);
      InsertAscending(gs[1..], k, v, lt);
      assert r == [gs[0]] + rest;
      assert lt(gs[0].key, k);
      forall i, j | 0 <= i < j < |r|
        ensures lt(r[i].key, r[j].key)
      {
        if i == 0 {
          assert lt(gs[0].key, rest[0].key);
          if j > 1 {
            assert lt(rest[0].key, rest[j - 1].key);
          }
        } else {
          assert r[i] == rest[i - 1] && r[j] == rest[j - 1];
        }
      }
    }
  }

  /** Inserting `v` under `k` appends `v` to the members of `k` and leaves every other key alone. */
  lemma {:induction false} FindInsert<K(!new), V>(gs: seq<Group<K, V>>, k: K, v: V, lt: (K, K) -> bool, q: K)
    requires StrictOrder(lt) && Ascending(gs, lt)
    ensures Find(Insert(gs, k, v, lt), q) == Find(gs, q) + (if q == k then [v] else [])
  {
    if |gs| == 0 {
    } else if gs[0].key == k {
      if q != k {
        assert Insert(gs, k, v, lt)[1..] == gs[1..];
      }
    } else if lt(k, gs[0].key) {
      var r := Insert(gs, k, v, lt);
      assert r[1..] == gs;
      if q == k {
        FindAbsentBelow(gs, k, lt);
      }
    } else {
      var r := Insert(gs, k, v, lt);
      assert r[1..] == Insert(gs[1..], k, v, lt);
      FindInsert(gs[1..], k, v, lt, q);
    }
  }

  /** A key below every group's key has no group. */
  lemma {:induction false} FindAbsentBelow<K(!new), V>(gs: seq<Group<K, V>>, k: K, lt: (K, K) -> bool)
    requires StrictOrder(lt) && Ascending(gs, lt)
    requires |gs| > 0 ==> lt(k, gs[0].key)
    ensures Find(gs, k) == []
  {
    if |gs| > 0 {
      assert gs[0].key != k;
      if |gs| > 1 {
        assert lt(gs[0].key, gs[1].key);
      }
      FindAbsentBelow(gs[1..], k, lt);
    }
  }

  /** With distinct keys, the group at index `i` is the one `Find` reaches. */
  lemma {:induction false} FindAt<K(!new), V>(gs: seq<Group<K, V>>, lt: (K, K) -> bool, i: int)
    requires StrictOrder(lt) && Ascending(gs, lt) && 0 <= i < |gs|
    ensures Find(gs, gs[i].key) == gs[i].members
  {
    if i > 0 {
      assert lt(gs[0].key, gs[i].key);
      FindAt(gs[1..], lt, i - 1);
    }
  }

  /** `Find` returns nothing exactly for keys that have no group. */
  lemma {:induction false} FindMissing<K(!new), V>(gs: seq<Group<K, V>>, k: K)
    requires Inhabited(gs)
    ensures Find(gs, k) == [] <==> forall i :: 0 <= i < |gs| ==> gs[i].key != k
  {
    if |gs| > 0 && gs[0].key != k {
      FindMissing(gs[1..], k);
      forall i | 0 < i < |gs|
        ensures gs[i].key == gs[1..][i - 1].key
      {
      }
    }
  }

  // ---------------------------------------------------------------------
  // What the whole fold computes

  /** The fold's invariant: ordered, non-empty groups holding exactly the selections of `xs`. */
  lemma {:induction false} GroupByInvariant<K(!new), V>(xs: seq<V>, key: V -> K, lt: (K, K) -> bool)
    requires StrictOrder(lt)
    ensures var gs := GroupBy(xs, key, lt);
      && Ascending(gs, lt) && Inhabited(gs) && Size(gs) == |xs|
      && forall q :: Find(gs, q) == Select(xs, key, q)
  {
    if |xs| > 0 {
      var init := xs[..|xs| - 1];
      var last := xs[|xs| - 1];
      var gs0 := GroupBy(init, key, lt);
      GroupByInvariant(init, key, lt);
      InsertSize(gs0, key(last), last, lt);
      InsertAscending(gs0, key(last), last, lt);
      forall q
        ensures Find(GroupBy(xs, key, lt), q) == Select(xs, key, q)
      {
        FindInsert(gs0, key(last), last, lt, q);
      }
    }
  }

  /**
   * The grouping's contract: keys strictly ascend (at most one group per
   * key), each group holds exactly the elements of its key in input order,
   * a key has a group iff some element carries it, and the group sizes add
   * up to the input length.
   */
  lemma GroupByCorrect<K(!new), V>(xs: seq<V>, key: V -> K, lt: (K, K) -> bool)
    requires StrictOrder(lt)
    ensures var gs := GroupBy(xs, key, lt);
      && Ascending(gs, lt)
      && Size(gs) == |xs|
      && (forall i :: 0 <= i < |gs| ==> gs[i].members == Select(xs, key, gs[i].key) && |gs[i].members| > 0)
      && (forall q :: Select(xs, key, q) == [] <==> forall i :: 0 <= i < |gs| ==> gs[i].key != q)
  {
    var gs := GroupBy(xs, key, lt);
    GroupByInvariant(xs, key, lt);
    forall i | 0 <= i < |gs|
      ensures gs[i].members == Select(xs, key, gs[i].key)
    {
      FindAt(gs, lt, i);
    }
    forall q
      ensures Select(xs, key, q) == [] <==> forall i :: 0 <= i < |gs| ==> gs[i].key != q
    {
      FindMissing(gs, q);
    }
  }
}

=== FILE: listing.dfy ===
/**
 * `getTasks` of controllers/taskController.js: filter the requester's
 * tasks by the query, order them newest first, cut out one page and
 * describe the neighbouring pages.
 *
 * The database query is replaced by an in-memory scan, sort and slice.
 */
module Listing {
  import opened Common
  import opened Text
  import opened Tasks

  /** The query string parameters `getTasks` reads; `None` when absent. */
  datatype Query = Query(completed: Option<string>, priority: Option<string>, page: Option<string>, limit: Option<string>)

  /** The query object: the owner always, completion and priority when asked for. */
  datatype Filter = Filter(owner: Id, completed: Option<bool>, priority: Option<string>)

  /** A query parameter is used only when it is a non-empty string. */
  predicate Given(param: Option<string>) {
    param.Some? && param.value != ""
  }

  function FilterOf(requester: Id, q: Query): (f: Filter)
    ensures f.owner == requester
    ensures f.completed.Some? <==> Given(q.completed)
    ensures Given(q.completed) ==> (f.completed.value <==> q.completed.value == "true")
    ensures f.priority.Some? <==> Given(q.priority)
    ensures Given(q.priority) ==> f.priority.value == q.priority.value
  {
    Filter(
      requester,
      if Given(q.completed) then Some(q.completed.value == "true") else None,
      if Given(q.priority) then Some(q.priority.value) else None)
  }

  predicate Matches(t: Task, f: Filter) {
    && t.owner == f.owner
    && (f.completed.Some? ==> t.completed == f.completed.value)
    && (f.priority.Some? ==> t.priority == f.priority.value)
  }

  /** The ids of the stored tasks the filter selects (what `countDocuments` counts). */
  ghost function MatchingIds(store: TaskStore, f: Filter): set<Id> {
    set id | id in store && Matches(store[id], f)
  }

  // ---------------------------------------------------------------------
  // Scan and sort

  /** Collects the matching tasks, each exactly once, in no particular order. */
  method Scan(store: TaskStore, f: Filter) returns (ts: seq<Task>)
    requires Keyed(store)
    ensures forall t :: t in ts <==> t.id in store && store[t.id] == t && Matches(t, f)
    ensures |ts| == |MatchingIds(store, f)|
  {
    var todo := store.Keys;
    ghost var matched: set<Id> := {};
    ts := [];
    while todo != {}
      invariant todo <= store.Keys
      invariant forall id :: id in matched <==> id in store && id !in todo && Matches(store[id], f)
      invariant forall t :: t in ts <==> t.id in matched && store[t.id] == t
      invariant |ts| == |matched|
      decreases |todo|
    {
      var id :| id in todo;
      if Matches(store[id], f) {
        assert id !in matched;
        var t := store[id];
        assert forall u :: u in ts + [t] <==> u in ts || u == t;
        ts := ts + [t];
        matched := matched + {id};
      }
      todo := todo - {id};
    }
    assert matched == MatchingIds(store, f);
  }

  /** Newest first: creation times never increase along the sequence. */
  ghost predicate NewestFirst(ts: seq<Task>) {
    forall i, j :: 0 <= i < j < |ts| ==> ts[i].createdAt >= ts[j].createdAt
  }

  /** Inserts `t` into a newest-first sequence, before the first task not newer than it. */
  function InsertByAge(t: Task, ts: seq<Task>): (r: seq<Task>)
    requires NewestFirst(ts)
    ensures NewestFirst(r)
    ensures multiset(r) == multiset(ts) + multiset{t}
  {
    if |ts| == 0 then [t]
    else if t.createdAt >= ts[0].createdAt then [t] + ts
    else
      var rest := InsertByAge(t, ts[1..]);
      assert ts == [ts[0]] + ts[1..];
      HeadNotOlder(ts, t, rest);
      [ts[0]] + rest
  }

  /** The head of a newest-first sequence is not older than anything made of its tail and an older task. */
  lemma HeadNotOlder(ts: seq<Task>, t: Task, rest: seq<Task>)
    requires |ts| > 0 && NewestFirst(ts) && t.createdAt < ts[0].createdAt
    requires multiset(rest) == multiset(ts[1..]) + multiset{t}
    ensures forall j :: 0 <= j < |rest| ==> ts[0].createdAt >= rest[j].createdAt
  {
    forall j | 0 <= j < |rest|
      ensures ts[0].createdAt >= rest[j].createdAt
    {
      var x := rest[j];
      assert x in multiset(rest);
      if x != t {
        assert x in multiset(ts[1..]);
        var k :| 0 <= k < |ts[1..]| && ts[1..][k] == x;
        assert ts[k + 1] == x;
      }
    }
  }

  /** `.sort({createdAt: -1})`: a newest-first permutation. */
  function SortNewestFirst(ts: seq<Task>): (r: seq<Task>)
    ensures NewestFirst(r)
    ensures multiset(r) == multiset(ts)
  {
    if |ts| == 0 then []
    else
      assert ts == ts[..|ts| - 1] + [ts[|ts| - 1]];
      InsertByAge(ts[|ts| - 1], SortNewestFirst(ts[..|ts| - 1]))
  }

  // ---------------------------------------------------------------------
  // Pagination

  /** The page window: `page` and `limit` after `parseInt(...) || default`. */
  datatype Window = Window(page: int, limit: int) {
    function StartIndex(): int { (page - 1) * limit }
    function EndIndex(): int { page * limit }
  }

  /** The window the query asks for: page defaults to 1, limit to 10. */
  function WindowOf(q: Query): (w: Window)
    ensures w.page != 0 && w.limit != 0
    ensures q.page.Some? && Truthy(ParseInt(q.page.value)) ==> w.page == ParseInt(q.page.value).value
    ensures q.page.None? || !Truthy(ParseInt(q.page.value)) ==> w.page == 1
    ensures q.limit.Some? && Truthy(ParseInt(q.limit.value)) ==> w.limit == ParseInt(q.limit.value).value
    ensures q.limit.None? || !Truthy(ParseInt(q.limit.value)) ==> w.limit == 10
  {
    Window(IntOr(q.page, 1), IntOr(q.limit, 10))
  }

  datatype PageRef = PageRef(page: int, limit: int)

  /** The `pagination` object: each descriptor is present only when applicable. */
  datatype Pagination = Pagination(next: Option<PageRef>, prev: Option<PageRef>)

  /** The reply body of a listing: `count`, `pagination` and the page's tasks. */
  datatype ListingPage = ListingPage(count: nat, pagination: Pagination, items: seq<Task>)

  /**
   * The outcome of a listing: a page, or a query whose skip came out
   * negative (a page below 1 that `|| 1` let through), which the database
   * refuses and which therefore reaches the error translator.
   */
  datatype ListOutcome = Listed(listing: ListingPage) | SkipRejected(skip: int)

  function Abs(n: int): nat {
    if n < 0 then -n else n
  }

  function Min(a: int, b: int): int {
    if a <= b then a else b
  }

  /** `.skip(startIndex).limit(limit)` over the full ordered result, with the descriptors. */
  function Paginate(ordered: seq<Task>, w: Window): (r: ListOutcome)
    requires w.limit != 0
    ensures r.SkipRejected? <==> w.StartIndex() < 0
    ensures r.Listed? ==>
      var s := w.StartIndex();
      var l := r.listing;
      && l.count == |l.items|
      && (s >= |ordered| ==> l.items == [])
      && (s < |ordered| ==> l.items == ordered[s..Min(s + Abs(w.limit), |ordered|)])
      && (l.pagination.next.Some? <==> w.EndIndex() < |ordered|)
      && (l.pagination.next.Some? ==> l.pagination.next.value == PageRef(w.page + 1, w.limit))
      && (l.pagination.prev.Some? <==> s > 0)
      && (l.pagination.prev.Some? ==> l.pagination.prev.value == PageRef(w.page - 1, w.limit))
  {
    var s := w.StartIndex();
    if s < 0 then SkipRejected(s)
    else
      var rest := if s < |ordered| then ordered[s..] else [];
      var items := rest[..Min(Abs(w.limit), |rest|)];
      var next := if w.EndIndex() < |ordered| then Some(PageRef(w.page + 1, w.limit)) else None;
      var prev := if s > 0 then Some(PageRef(w.page - 1, w.limit)) else None;
      Listed(ListingPage(|items|, Pagination(next, prev), items))
  }

  /** For a positive window, page `P` of `N` tasks holds `min(L, N - (P-1)L)` tasks, and none past the end. */
  lemma PageSize(ordered: seq<Task>, w: Window)
    requires w.page >= 1 && w.limit >= 1
    ensures Paginate(ordered, w).Listed?
    ensures Paginate(ordered, w).listing.count
         == if w.StartIndex() >= |ordered| then 0 else Min(w.limit, |ordered| - w.StartIndex())
  {
    assert w.StartIndex() >= 0 by {
      assert (w.page - 1) * w.limit >= 0 * w.limit;
    }
  }

  /** `next` appears exactly when tasks remain after this page; `prev` exactly when this is not page 1. */
  lemma DescriptorsMeanNeighbours(ordered: seq<Task>, w: Window)
    requires w.page >= 1 && w.limit >= 1
    ensures var l := Paginate(ordered, w).listing;
      && (l.pagination.next.Some? <==> w.StartIndex() + l.count < |ordered|)
      && (l.pagination.prev.Some? <==> w.page > 1)
  {
    PageSize(ordered, w);
    assert w.EndIndex() == w.StartIndex() + w.limit;
    if w.page > 1 {
      assert (w.page - 1) * w.limit >= 1 * w.limit;
    }
  }

  lemma NextWindowStart(w: Window)
    ensures Window(w.page + 1, w.limit).StartIndex() == w.StartIndex() + w.limit == w.EndIndex()
  {
  }

  /** Following `next` continues exactly where this page ended: consecutive pages tile the ordered result. */
  lemma NextPageContinues(ordered: seq<Task>, w: Window)
    requires w.page >= 1 && w.limit >= 1
    requires Paginate(ordered, w).listing.pagination.next.Some?
    ensures var n := Paginate(ordered, w).listing.pagination.next.value;
      var here := Paginate(ordered, w).listing.items;
      var there := Paginate(ordered, Window(n.page, n.limit)).listing.items;
      && Paginate(ordered, Window(n.page, n.limit)).Listed?
      && here + there == ordered[w.StartIndex()..Min(w.StartIndex() + 2 * w.limit, |ordered|)]
  {
    var s := w.StartIndex();
    var l := w.limit;
    var w' := Window(w.page + 1, w.limit);
    NextWindowStart(w);
    PageSize(ordered, w);
    assert s + l < |ordered|;
    var here := Paginate(ordered, w).listing.items;
    var there := Paginate(ordered, w').listing.items;
    assert here == ordered[s..s + l];
    assert there == ordered[s + l..Min(s + 2 * l, |ordered|)];
  }

  lemma SignOfProduct(a: int, b: int)
    requires a < 0 && b != 0
    ensures b > 0 <==> a * b < 0
  {
    if b > 0 {
      assert a * b <= -1 * b;
    } else {
      assert a * b >= -1 * b;
    }
  }

  /** A negative `page` survives `|| 1`, so the skip is negative and the query is refused. */
  lemma NegativePageSurvives(n: int, q: Query)
    requires n < 0 && q.page == Some(Show(n))
    ensures WindowOf(q).page == n
    ensures Paginate([], WindowOf(q)).SkipRejected? <==> WindowOf(q).limit > 0
  {
    ParseIntShow(n);
    var w := WindowOf(q);
    assert w.page == n;
    SignOfProduct(n - 1, w.limit);
  }

  // ---------------------------------------------------------------------
  // The operation

  /**
   * `getTasks`: `ordered` is the full newest-first result of the query,
   * `r` the page of it that is sent.
   */
  method ListTasks(store: TaskStore, requester: Id, q: Query) returns (ordered: seq<Task>, r: ListOutcome)
    requires Keyed(store)
    ensures forall t :: t in ordered <==> t.id in store && store[t.id] == t && Matches(t, FilterOf(requester, q))
    ensures |ordered| == |MatchingIds(store, FilterOf(requester, q))|
    ensures NewestFirst(ordered)
    ensures r == Paginate(ordered, WindowOf(q))
    ensures r.Listed? ==> forall t :: t in r.listing.items ==>
      && t.owner == requester
      && (Given(q.completed) ==> (t.completed <==> q.completed.value == "true"))
      && (Given(q.priority) ==> t.priority == q.priority.value)
  {
    var f := FilterOf(requester, q);
    var found := Scan(store, f);
    ordered := SortNewestFirst(found);
    assert forall t :: t in ordered <==> t in found by {
      assert forall t :: t in ordered <==> t in multiset(ordered);
      assert forall t :: t in found <==> t in multiset(found);
    }
    assert |ordered| == |multiset(ordered)| == |multiset(found)| == |found|;
    r := Paginate(ordered, WindowOf(q));
  }

  /** The example of a three-task owner asking for page 2 of size 1: one task, with both neighbours. */
  lemma SecondOfThree(ordered: seq<Task>)
    requires |ordered| == 3
    ensures Paginate(ordered, Window(2, 1))
         == Listed(ListingPage(1, Pagination(Some(PageRef(3, 1)), Some(PageRef(1, 1))), [ordered[1]]))
  {
  }
}

=== FILE: stats.dfy ===
/**
 * `getTaskStats` of controllers/taskController.js: the requester's tasks
 * grouped by completion (with a title/priority listing per group) and by
 * priority, each grouping sorted by key ascending.
 *
 * The two aggregation pipelines are replaced by the in-memory fold of
 * module Grouping over the requester's tasks, taken in unspecified order.
 */
module Stats {
  import opened Common
  import opened Text
  import opened Tasks
  import Listing
  import Grouping

  /** The `{title, priority}` projection pushed into each completion group. */
  datatype Summary = Summary(title: string, priority: string)

  /** One completion group: `_id`, `count` and `tasks`. */
  datatype CompletionStat = CompletionStat(completed: bool, count: nat, tasks: seq<Summary>)

  /** One priority group: `_id` and `count`. */
  datatype PriorityStat = PriorityStat(priority: string, count: nat)

  datatype TaskStats = TaskStats(completionStats: seq<CompletionStat>, priorityStats: seq<PriorityStat>)

  /** Key order of the completion grouping: `false` before `true`. */
  predicate BoolLess(a: bool, b: bool) {
    !a && b
  }

  function CompletedKey(t: Task): bool {
    t.completed
  }

  function PriorityKey(t: Task): string {
    t.priority
  }

  function Summarize(ts: seq<Task>): (r: seq<Summary>)
    ensures |r| == |ts|
    ensures forall i :: 0 <= i < |ts| ==> r[i] == Summary(ts[i].title, ts[i].priority)
  {
    seq(|ts|, i requires 0 <= i < |ts| => Summary(ts[i].title, ts[i].priority))
  }

  /** The number of tasks of `ts` whose completion flag is `b`. */
  function CountCompleted(ts: seq<Task>, b: bool): nat {
    if |ts| == 0 then 0
    else CountCompleted(ts[..|ts| - 1], b) + (if ts[|ts| - 1].completed == b then 1 else 0)
  }

  /** The number of tasks of `ts` with priority `p`. */
  function CountPriority(ts: seq<Task>, p: string): nat {
    if |ts| == 0 then 0
    else CountPriority(ts[..|ts| - 1], p) + (if ts[|ts| - 1].priority == p then 1 else 0)
  }

  lemma StrictOrderBool()
    ensures Grouping.StrictOrder(BoolLess)
  {
  }

  lemma StrictOrderLex()
    ensures Grouping.StrictOrder(LexLess)
  {
    forall x: string
      ensures !LexLess(x, x)
    {
      LexLessIrreflexive(x);
    }
    forall x: string, y: string, z: string | LexLess(x, y) && LexLess(y, z)
      ensures LexLess(x, z)
    {
      LexLessTransitive(x, y, z);
    }
    forall x: string, y: string | x != y
      ensures LexLess(x, y) || LexLess(y, x)
    {
      LexLessConnected(x, y);
    }
  }

  lemma {:induction false} SelectCompleted(ts: seq<Task>, b: bool)
    ensures |Grouping.Select(ts, CompletedKey, b)| == CountCompleted(ts, b)
  {
    if |ts| > 0 {
      SelectCompleted(ts[..|ts| - 1], b);
    }
  }

  lemma {:induction false} SelectPriority(ts: seq<Task>, p: string)
    ensures |Grouping.Select(ts, PriorityKey, p)| == CountPriority(ts, p)
  {
    if |ts| > 0 {
      SelectPriority(ts[..|ts| - 1], p);
    }
  }

  /** Sum of the counts of a completion grouping. */
  function CompletionTotal(cs: seq<CompletionStat>): nat {
    if |cs| == 0 then 0 else cs[0].count + CompletionTotal(cs[1..])
  }

  /** Sum of the counts of a priority grouping. */
  function PriorityTotal(ps: seq<PriorityStat>): nat {
    if |ps| == 0 then 0 else ps[0].count + PriorityTotal(ps[1..])
  }

  function ToCompletionStats(gs: seq<Grouping.Group<bool, Task>>): (cs: seq<CompletionStat>)
    ensures |cs| == |gs|
    ensures forall i :: 0 <= i < |gs| ==>
      cs[i] == CompletionStat(gs[i].key, |gs[i].members|, Summarize(gs[i].members))
    ensures CompletionTotal(cs) == Grouping.Size(gs)
  {
    if |gs| == 0 then []
    else [CompletionStat(gs[0].key, |gs[0].members|, Summarize(gs[0].members))] + ToCompletionStats(gs[1..])
  }

  function ToPriorityStats(gs: seq<Grouping.Group<string, Task>>): (ps: seq<PriorityStat>)
    ensures |ps| == |gs|
    ensures forall i :: 0 <= i < |gs| ==> ps[i] == PriorityStat(gs[i].key, |gs[i].members|)
    ensures PriorityTotal(ps) == Grouping.Size(gs)
  {
    if |gs| == 0 then []
    else [PriorityStat(gs[0].key, |gs[0].members|)] + ToPriorityStats(gs[1..])
  }

  /** The completion groups are the grouping fold over `ts`, with per-value counts. */
  lemma {:induction false} CompletionGroups(ts: seq<Task>, gs: seq<Grouping.Group<bool, Task>>)
    requires gs == Grouping.GroupBy(ts, CompletedKey, BoolLess)
    ensures Grouping.Ascending(gs, BoolLess)
    ensures Grouping.Size(gs) == |ts|
    ensures forall i :: 0 <= i < |gs| ==> gs[i].members == Grouping.Select(ts, CompletedKey, gs[i].key) && |gs[i].members| > 0
    ensures forall b :: Grouping.Select(ts, CompletedKey, b) == [] <==> forall i :: 0 <= i < |gs| ==> gs[i].key != b
    ensures forall b: bool :: CountCompleted(ts, b) == |Grouping.Select(ts, CompletedKey, b)|
  {
    StrictOrderBool();
    Grouping.GroupByCorrect(ts, CompletedKey, BoolLess);
    forall b: bool
      ensures CountCompleted(ts, b) == |Grouping.Select(ts, CompletedKey, b)|
    {
      SelectCompleted(ts, b);
    }
  }

  /** The completion entry for value `b`: its count and its tasks' summaries in order. */
  function Entry(ts: seq<Task>, b: bool): CompletionStat {
    CompletionStat(b, CountCompleted(ts, b), Summarize(Grouping.Select(ts, CompletedKey, b)))
  }

  /** Reference shape of the completion grouping: the `false` entry, then the `true` entry, each only when inhabited. */
  function ExpectedCompletion(ts: seq<Task>): seq<CompletionStat> {
    (if CountCompleted(ts, false) > 0 then [Entry(ts, false)] else [])
    + (if CountCompleted(ts, true) > 0 then [Entry(ts, true)] else [])
  }

  /** The grouping fold over the completion flag has the reference shape. */
  lemma {:induction false} CompletionShape(ts: seq<Task>, gs: seq<Grouping.Group<bool, Task>>, cs: seq<CompletionStat>)
    requires gs == Grouping.GroupBy(ts, CompletedKey, BoolLess)
    requires cs == ToCompletionStats(gs)
    ensures cs == ExpectedCompletion(ts)
    ensures CompletionTotal(cs) == |ts|
  {
    CompletionGroups(ts, gs);
    if |gs| == 0 {
      assert Grouping.Select(ts, CompletedKey, false) == [];
      assert Grouping.Select(ts, CompletedKey, true) == [];
    } else if |gs| == 1 {
      assert Grouping.Select(ts, CompletedKey, !gs[0].key) == [];
    } else {
      assert |gs| > 2 ==> BoolLess(gs[0].key, gs[1].key) && BoolLess(gs[1].key, gs[2].key);
    }
  }

  /**
   * The completion grouping: the `false` entry, then the `true` entry, each
   * present iff some task has that value and then counting and listing
   * exactly those tasks in order; the counts sum to `|ts|`.
   */
  function CompletionStats(ts: seq<Task>): (cs: seq<CompletionStat>)
    ensures cs == (if CountCompleted(ts, false) > 0 then [Entry(ts, false)] else [])
                + (if CountCompleted(ts, true) > 0 then [Entry(ts, true)] else [])
    ensures CompletionTotal(cs) == |ts|
  {
    var gs := Grouping.GroupBy(ts, CompletedKey, BoolLess);
    var cs := ToCompletionStats(gs);
    CompletionShape(ts, gs, cs);
    cs
  }

  /**
   * The priority grouping: priorities strictly ascending in code point
   * order, each group counting exactly its tasks, a group for a priority
   * iff some task has it, counts summing to `|ts|`.
   */
  function PriorityStats(ts: seq<Task>): (ps: seq<PriorityStat>)
    ensures forall i, j :: 0 <= i < j < |ps| ==> LexLess(ps[i].priority, ps[j].priority)
    ensures forall i :: 0 <= i < |ps| ==> ps[i].count == CountPriority(ts, ps[i].priority) > 0
    ensures forall p :: CountPriority(ts, p) > 0 <==> exists i :: 0 <= i < |ps| && ps[i].priority == p
    ensures PriorityTotal(ps) == |ts|
  {
    var gs := Grouping.GroupBy(ts, PriorityKey, LexLess);
    StrictOrderLex();
    Grouping.GroupByCorrect(ts, PriorityKey, LexLess);
    var ps := ToPriorityStats(gs);
    forall p
      ensures CountPriority(ts, p) == |Grouping.Select(ts, PriorityKey, p)|
    {
      SelectPriority(ts, p);
    }
    ps
  }

  /**
   * `getTaskStats`: `owned` is the requester's tasks, each once and in
   * unspecified order, which both groupings fold over; the title/priority
   * listing of each completion group follows that same order.
   */
  method GetTaskStats(store: TaskStore, requester: Id) returns (owned: seq<Task>, stats: TaskStats)
    requires Keyed(store)
    ensures forall t :: t in owned <==> t.id in store && store[t.id] == t && t.owner == requester
    ensures |owned| == |Listing.MatchingIds(store, Listing.Filter(requester, None, None))|
    ensures stats == TaskStats(CompletionStats(owned), PriorityStats(owned))
    ensures CompletionTotal(stats.completionStats) == |owned| == PriorityTotal(stats.priorityStats)
  {
    owned := Listing.Scan(store, Listing.Filter(requester, None, None));
    stats := TaskStats(CompletionStats(owned), PriorityStats(owned));
  }
}

=== FILE: tasks.dfy ===
/**
 * Task records and the single-task operations of
 * controllers/taskController.js (create, get, update, delete) as
 * transitions over an in-memory task store.
 */
module Tasks {
  import opened Common
  import ErrorMapping

  /** A stored task; `owner` is the id of the user it belongs to. */
  datatype Task = Task(
    id: Id,
    owner: Id,
    title: string,
    description: Option<string>,
    priority: string,
    completed: bool,
    dueDate: Option<string>,
    createdAt: int)

  /** The task collection, keyed by task id. */
  type TaskStore = map<Id, Task>

  /** Every task is stored under its own id. */
  ghost predicate Keyed(store: TaskStore) {
    forall id :: id in store ==> store[id].id == id
  }

  /** A creation body once validated; `user` is whatever the client put there. */
  datatype NewTask = NewTask(
    title: string,
    description: Option<string>,
    priority: Option<string>,
    completed: Option<bool>,
    dueDate: Option<string>,
    user: Option<Id>)

  /** An update body: every field is optional and a present field overwrites. */
  datatype TaskPatch = TaskPatch(
    title: Option<string>,
    description: Option<string>,
    priority: Option<string>,
    completed: Option<bool>,
    dueDate: Option<string>,
    user: Option<Id>)

  /** The reply of a single-task operation: the task, or nothing for a deletion. */
  datatype Payload = One(task: Task) | Nothing

  type TaskReply = Reply<TaskStore, Payload>

  // ---------------------------------------------------------------------
  // Creation

  /**
   * `createTask`: the owner is stamped from the requester, overriding any
   * `user` in the body; absent fields take the schema defaults. A taken id
   * fails on the unique `_id` index and reaches the error translator.
   */
  function CreateTask(store: TaskStore, requester: Id, id: Id, body: NewTask, now: int, defaultPriority: string): (r: TaskReply)
    requires Keyed(store)
    ensures Keyed(r.state)
    ensures r.status == 201 || r.status == 400
    ensures id in store ==> r.state == store && r.body == Error("Duplicate field value entered")
    ensures id !in store <==> r.status == 201
    ensures r.status == 201 ==> r.body.Data? && r.body.data.One?
    ensures r.status == 201 && r.body.Data? && r.body.data.One? ==>
      var t := r.body.data.task;
      && r.state == store[id := t]
      && t.owner == requester && t.id == id && t.createdAt == now
      && t.title == body.title && t.completed == body.completed.GetOr(false)
      && t.priority == body.priority.GetOr(defaultPriority)
      && t.description == body.description && t.dueDate == body.dueDate
  {
    if id in store then
      var v := ErrorMapping.Classify(ErrorMapping.DuplicateKeyError());
      ErrorMapping.DuplicateKeyIs400(ErrorMapping.DuplicateKeyError());
      Reply(v.status, store, Error(v.message))
    else
      var t := Task(id, requester, body.title, body.description, body.priority.GetOr(defaultPriority),
                    body.completed.GetOr(false), body.dueDate, now);
      Reply(201, store[id := t], Data(One(t)))
  }

  /** The body's own `user` field has no effect on creation. */
  lemma CreateIgnoresBodyOwner(store: TaskStore, requester: Id, id: Id, body: NewTask, now: int, p: string, other: Option<Id>)
    requires Keyed(store)
    ensures CreateTask(store, requester, id, body, now, p) == CreateTask(store, requester, id, body.(user := other), now, p)
  {
  }

  // ---------------------------------------------------------------------
  // Access decision shared by get, update and delete

  /** The outcome of looking a task up on behalf of a requester. */
  datatype Access = Missing | Foreign | Owned(task: Task)

  /** Existence first, ownership second. */
  function Authorize(store: TaskStore, requester: Id, id: Id): (a: Access)
    ensures a.Missing? <==> id !in store
    ensures a.Foreign? <==> id in store && store[id].owner != requester
    ensures a.Owned? <==> id in store && store[id].owner == requester
    ensures a.Owned? ==> a.task == store[id]
  {
    if id !in store then Missing
    else if store[id].owner != requester then Foreign
    else Owned(store[id])
  }

  /** The 404 or 403 reply for a refused access; `action` names the operation in the 403 message. */
  function Refusal(store: TaskStore, a: Access, action: string): (r: TaskReply)
    requires !a.Owned?
    ensures r.state == store
    ensures a.Missing? ==> r.status == 404 && r.body == Error("Task not found")
    ensures a.Foreign? ==> r.status == 403 && r.body == Error("Not authorized to " + action + " this task")
  {
    if a.Missing? then Reply(404, store, Error("Task not found"))
    else Reply(403, store, Error("Not authorized to " + action + " this task"))
  }

  /** `getTask`. */
  function GetTask(store: TaskStore, requester: Id, id: Id): (r: TaskReply)
    ensures r.state == store
    ensures r.status == 404 <==> id !in store
    ensures r.status == 404 ==> r.body == Error("Task not found")
    ensures r.status == 403 <==> id in store && store[id].owner != requester
    ensures r.status == 403 ==> r.body == Error("Not authorized to access this task")
    ensures r.status == 200 <==> id in store && store[id].owner == requester
    ensures r.status == 200 ==> r.body == Data(One(store[id]))
  {
    match Authorize(store, requester, id)
    case Owned(t) => Reply(200, store, Data(One(t)))
    case a => Refusal(store, a, "access")
  }

  /** Overwrites the fields the patch carries and keeps the others; the id never changes. */
  function ApplyPatch(t: Task, p: TaskPatch): (u: Task)
    ensures u.id == t.id && u.createdAt == t.createdAt
    ensures p == TaskPatch(None, None, None, None, None, None) ==> u == t
    ensures p.title.Some? ==> u.title == p.title.value
    ensures p.title.None? ==> u.title == t.title
    ensures p.user.Some? ==> u.owner == p.user.value
    ensures p.user.None? ==> u.owner == t.owner
    ensures p.description.Some? ==> u.description == p.description
    ensures p.description.None? ==> u.description == t.description
    ensures p.priority.Some? ==> u.priority == p.priority.value
    ensures p.priority.None? ==> u.priority == t.priority
    ensures p.completed.Some? ==> u.completed == p.completed.value
    ensures p.completed.None? ==> u.completed == t.completed
    ensures p.dueDate.Some? ==> u.dueDate == p.dueDate
    ensures p.dueDate.None? ==> u.dueDate == t.dueDate
  {
    Task(
      t.id,
      p.user.GetOr(t.owner),
      p.title.GetOr(t.title),
      if p.description.Some? then p.description else t.description,
      p.priority.GetOr(t.priority),
      p.completed.GetOr(t.completed),
      if p.dueDate.Some? then p.dueDate else t.dueDate,
      t.createdAt)
  }

  /** Applying the same patch twice is applying it once. */
  lemma ApplyPatchIdempotent(t: Task, p: TaskPatch)
    ensures ApplyPatch(ApplyPatch(t, p), p) == ApplyPatch(t, p)
  {
  }

  /** `updateTask`: only the requester's own task is rewritten, and nothing else in the store. */
  function UpdateTask(store: TaskStore, requester: Id, id: Id, patch: TaskPatch): (r: TaskReply)
    requires Keyed(store)
    ensures Keyed(r.state)
    ensures r.status == 404 <==> id !in store
    ensures r.status == 404 ==> r.body == Error("Task not found")
    ensures r.status == 403 <==> id in store && store[id].owner != requester
    ensures r.status == 403 ==> r.body == Error("Not authorized to update this task")
    ensures r.status == 200 <==> id in store && store[id].owner == requester
    ensures r.status != 200 ==> r.state == store
    ensures r.status == 200 ==>
      && id in store && store[id].owner == requester
      && r.state.Keys == store.Keys
      && (forall k :: k in store && k != id ==> r.state[k] == store[k])
      && r.body == Data(One(r.state[id]))
      && r.state[id] == ApplyPatch(store[id], patch)
  {
    match Authorize(store, requester, id)
    case Owned(t) =>
      var u := ApplyPatch(t, patch);
      Reply(200, store[id := u], Data(One(u)))
    case a => Refusal(store, a, "update")
  }

  /** `deleteTask`: exactly the requester's own task disappears. */
  function DeleteTask(store: TaskStore, requester: Id, id: Id): (r: TaskReply)
    requires Keyed(store)
    ensures Keyed(r.state)
    ensures r.status == 404 <==> id !in store
    ensures r.status == 404 ==> r.body == Error("Task not found")
    ensures r.status == 403 <==> id in store && store[id].owner != requester
    ensures r.status == 403 ==> r.body == Error("Not authorized to delete this task")
    ensures r.status == 200 <==> id in store && store[id].owner == requester
    ensures r.status != 200 ==> r.state == store
    ensures r.status == 200 ==>
      && r.state.Keys == store.Keys - {id}
      && (forall k :: k in r.state ==> r.state[k] == store[k])
      && r.body == Data(Nothing)
  {
    match Authorize(store, requester, id)
    case Owned(_) => Reply(200, store - {id}, Data(Nothing))
    case a => Refusal(store, a, "delete")
  }

  // ---------------------------------------------------------------------
  // Properties across operations

  /** A missing task is a 404 for every requester and every operation: absence is decided before ownership. */
  lemma MissingIsNotFoundForAnyone(store: TaskStore, r1: Id, r2: Id, id: Id, patch: TaskPatch)
    requires Keyed(store) && id !in store
    ensures GetTask(store, r1, id) == GetTask(store, r2, id)
    ensures UpdateTask(store, r1, id, patch) == GetTask(store, r2, id)
    ensures DeleteTask(store, r1, id).status == 404 && DeleteTask(store, r1, id).state == store
  {
  }

  /** The three operations refuse the same requests with the same status. */
  lemma RefusalsAgree(store: TaskStore, requester: Id, id: Id, patch: TaskPatch)
    requires Keyed(store)
    ensures var g := GetTask(store, requester, id).status;
      && (g != 200 ==> UpdateTask(store, requester, id, patch).status == g)
      && (g != 200 ==> DeleteTask(store, requester, id).status == g)
      && (g == 200 <==> UpdateTask(store, requester, id, patch).status == 200)
  {
  }

  /** After a successful delete, getting that id is a 404 for everyone, never a 403. */
  lemma DeleteThenGetIsNotFound(store: TaskStore, requester: Id, id: Id, anyone: Id)
    requires Keyed(store)
    requires DeleteTask(store, requester, id).status == 200
    ensures GetTask(DeleteTask(store, requester, id).state, anyone, id).status == 404
  {
  }

  /** A successful update is what a later get by the (possibly new) owner returns. */
  lemma UpdateThenGet(store: TaskStore, requester: Id, id: Id, patch: TaskPatch)
    requires Keyed(store)
    requires UpdateTask(store, requester, id, patch).status == 200
    ensures var s := UpdateTask(store, requester, id, patch).state;
      var owner := patch.user.GetOr(requester);
      GetTask(s, owner, id) == Reply(200, s, Data(One(ApplyPatch(store[id], patch))))
  {
  }

  /** An update body naming another user hands the task over: its former owner is then refused. */
  lemma UpdateCanTransferOwnership(store: TaskStore, requester: Id, id: Id, patch: TaskPatch)
    requires Keyed(store)
    requires UpdateTask(store, requester, id, patch).status == 200
    requires patch.user.Some? && patch.user.value != requester
    ensures GetTask(UpdateTask(store, requester, id, patch).state, requester, id).status == 403
  {
  }

  /** Deleting a task just created, as its creator, restores the store. */
  lemma CreateThenDeleteRestores(store: TaskStore, requester: Id, id: Id, body: NewTask, now: int, p: string)
    requires Keyed(store) && id !in store
    ensures var c := CreateTask(store, requester, id, body, now, p);
      DeleteTask(c.state, requester, id) == Reply(200, store, Data(Nothing))
  {
    var c := CreateTask(store, requester, id, body, now, p);
    assert c.state - {id} == store;
  }

  /** Creating then getting as the creator returns the created task. */
  lemma CreateThenGet(store: TaskStore, requester: Id, id: Id, body: NewTask, now: int, p: string)
    requires Keyed(store) && id !in store
    ensures var c := CreateTask(store, requester, id, body, now, p);
      GetTask(c.state, requester, id) == Reply(200, c.state, c.body)
  {
  }
}

=== FILE: text.dfy ===
/**
 * String primitives the controllers and validators rely on: JavaScript's
 * whitespace trimming, `parseInt(s, 10)` with the `|| fallback` idiom, and
 * the binary (code point) order in which the database sorts string keys.
 */
module Text {
  import opened Common

  /** JavaScript's WhiteSpace and LineTerminator characters (the `\s` class). */
  predicate IsSpace(c: char) {
    || c == '\t' || c == '\n' || c == '\U{B}' || c == '\U{C}' || c == '\r'
    || c == ' ' || c == '\U{A0}' || c == '\U{1680}'
    || ('\U{2000}' <= c <= '\U{200A}')
    || c == '\U{2028}' || c == '\U{2029}' || c == '\U{202F}' || c == '\U{205F}'
    || c == '\U{3000}' || c == '\U{FEFF}'
  }

  /** `s` with its leading whitespace removed. */
  function TrimStart(s: string): (r: string)
    ensures |r| <= |s| && r == s[|s| - |r|..]
    ensures forall i :: 0 <= i < |s| - |r| ==> IsSpace(s[i])
    ensures |r| > 0 ==> !IsSpace(r[0])
  {
    if |s| > 0 && IsSpace(s[0]) then TrimStart(s[1..]) else s
  }

  /** `s` with its trailing whitespace removed. */
  function TrimEnd(s: string): (r: string)
    ensures |r| <= |s| && r == s[..|r|]
    ensures forall i :: |r| <= i < |s| ==> IsSpace(s[i])
    ensures |r| > 0 ==> !IsSpace(r[|r| - 1])
  {
    if |s| > 0 && IsSpace(s[|s| - 1]) then TrimEnd(s[..|s| - 1]) else s
  }

  /**
   * `s` is `r` with whitespace around it: `r` is the slice `s[a..b]` and
   * every character outside that slice is whitespace.
   */
  ghost predicate SpaceAround(s: string, r: string, a: int, b: int) {
    && 0 <= a <= b <= |s| && r == s[a..b]
    && (forall i :: 0 <= i < a ==> IsSpace(s[i]))
    && (forall i :: b <= i < |s| ==> IsSpace(s[i]))
  }

  /** `String.prototype.trim`, as the `trim()` sanitizer applies it. */
  function Trim(s: string): (r: string)
    ensures |r| <= |TrimStart(s)| && r == TrimStart(s)[..|r|]
    ensures |r| > 0 ==> !IsSpace(r[0]) && !IsSpace(r[|r| - 1])
  {
    TrimEnd(TrimStart(s))
  }

  /**
   * `trim()` cuts whitespace and only whitespace: the result is a slice of
   * the input, everything outside the slice is whitespace, and the slice
   * neither starts nor ends with whitespace.
   */
  lemma TrimSlice(s: string)
    ensures exists a, b :: SpaceAround(s, Trim(s), a, b)
    ensures |Trim(s)| > 0 ==> !IsSpace(Trim(s)[0]) && !IsSpace(Trim(s)[|Trim(s)| - 1])
  {
    var a, b := TrimBounds(s);
  }

  /** The bounds of the slice `trim()` keeps. */
  lemma TrimBounds(s: string) returns (a: int, b: int)
    ensures SpaceAround(s, Trim(s), a, b)
  {
    var t := TrimStart(s);
    var r := TrimEnd(t);
    assert r == Trim(s);
    a, b := |s| - |t|, |s| - |t| + |r|;
    PrefixOfSuffix(s, a, |r|);
    SpaceAfterSuffix(s, a, |r|);
  }

  /** A prefix of the suffix `s[a..]` is a slice of `s`. */
  lemma PrefixOfSuffix(s: string, a: int, k: int)
    requires 0 <= a <= |s| && 0 <= k <= |s| - a
    ensures s[a..][..k] == s[a..a + k]
  {
  }

  /** Whitespace that `TrimEnd` cut from the suffix `s[a..]` sits at the end of `s`. */
  lemma SpaceAfterSuffix(s: string, a: int, k: int)
    requires 0 <= a <= |s| && 0 <= k <= |s| - a
    requires forall j :: k <= j < |s| - a ==> IsSpace(s[a..][j])
    ensures forall i :: a + k <= i < |s| ==> IsSpace(s[i])
  {
    forall i | a + k <= i < |s|
      ensures IsSpace(s[i])
    {
      assert s[i] == s[a..][i - a];
    }
  }

  /** A string is trimmed to nothing exactly when every character is whitespace. */
  lemma TrimEmptyIffAllSpace(s: string)
    ensures Trim(s) == "" <==> forall i :: 0 <= i < |s| ==> IsSpace(s[i])
  {
    var t := TrimStart(s);
    if Trim(s) == "" {
      assert |t| == 0;
    } else {
      var r := Trim(s);
      assert !IsSpace(r[0]);
      assert t[0] == r[0];
      assert s[|s| - |t|] == t[0];
    }
  }

  /** Trimming an already trimmed string changes nothing. */
  lemma TrimIdempotent(s: string)
    ensures Trim(Trim(s)) == Trim(s)
  {
    var r := Trim(s);
    if |r| > 0 {
      assert !IsSpace(r[0]) && !IsSpace(r[|r| - 1]);
      assert TrimStart(r) == r;
      assert TrimEnd(r) == r;
    }
  }

  // ---------------------------------------------------------------------
  // parseInt(s, 10)

  predicate IsDigit(c: char) {
    '0' <= c <= '9'
  }

  predicate AllDigits(s: string) {
    forall i :: 0 <= i < |s| ==> IsDigit(s[i])
  }

  /** The longest prefix of `s` made of decimal digits. */
  function DigitPrefix(s: string): (r: string)
    ensures |r| <= |s| && r == s[..|r|]
    ensures AllDigits(r)
    ensures |r| < |s| ==> !IsDigit(s[|r|])
  {
    if |s| > 0 && IsDigit(s[0]) then [s[0]] + DigitPrefix(s[1..]) else ""
  }

  function DigitValue(c: char): nat
    requires IsDigit(c)
  {
    (c as int) - ('0' as int)
  }

  /** The number a run of decimal digits denotes. */
  function DigitsValue(ds: string): nat
    requires AllDigits(ds)
  {
    if |ds| == 0 then 0 else DigitsValue(ds[..|ds| - 1]) * 10 + DigitValue(ds[|ds| - 1])
  }

  /** The result of `parseInt`: a number or `NaN`. */
  datatype Parsed = NaN | Int(value: int)

  /** The number the leading run of digits of `u` denotes, or `NaN` when `u` starts with none. */
  function LeadingNumber(u: string): Parsed {
    var ds := DigitPrefix(u);
    if |ds| == 0 then NaN else Int(DigitsValue(ds))
  }

  /**
   * `parseInt(s, 10)`: skip leading whitespace, read an optional sign, then
   * the longest run of digits; `NaN` when there is no digit.
   */
  function ParseInt(s: string): Parsed {
    var t := TrimStart(s);
    if |t| > 0 && t[0] == '-' then
      match LeadingNumber(t[1..])
      case NaN => NaN
      case Int(v) => Int(-v)
    else if |t| > 0 && t[0] == '+' then LeadingNumber(t[1..])
    else LeadingNumber(t)
  }

  /** JavaScript truthiness of a `parseInt` result: 0 and `NaN` are falsy. */
  predicate Truthy(p: Parsed) {
    p.Int? && p.value != 0
  }

  /** `parseInt(param, 10) || fallback`; an absent parameter parses to `NaN`. */
  function IntOr(param: Option<string>, fallback: int): (r: int)
    ensures param.Some? && Truthy(ParseInt(param.value)) ==> r == ParseInt(param.value).value
    ensures param.None? || !Truthy(ParseInt(param.value)) ==> r == fallback
    ensures fallback != 0 ==> r != 0
  {
    match param
    case None => fallback
    case Some(s) =>
      match ParseInt(s)
      case NaN => fallback
      case Int(v) => if v == 0 then fallback else v
  }

  // ---------------------------------------------------------------------
  // String length as the `isLength` check counts it

  /** The variation selectors U+FE0E and U+FE0F, which `isLength` does not count. */
  predicate IsPresentationSelector(c: char) {
    c == '\U{FE0E}' || c == '\U{FE0F}'
  }

  /**
   * The length `isLength` compares with its bounds: code points, a surrogate
   * pair counting once, minus the presentation selectors.
   */
  function CountedLength(s: string): (n: nat)
    ensures n <= |s|
    ensures n == |s| - multiset(s)['\U{FE0E}'] - multiset(s)['\U{FE0F}']
    ensures (forall i :: 0 <= i < |s| ==> !IsPresentationSelector(s[i])) ==> n == |s|
  {
    if |s| == 0 then 0
    else
      assert s == [s[0]] + s[1..];
      assert multiset(s) == multiset{s[0]} + multiset(s[1..]);
      CountedLength(s[1..]) + (if IsPresentationSelector(s[0]) then 0 else 1)
  }

  /** The count of a concatenation is the sum of the counts: selectors are skipped wherever they stand. */
  lemma {:induction false} CountedLengthAppend(a: string, b: string)
    ensures CountedLength(a + b) == CountedLength(a) + CountedLength(b)
    decreases |a|
  {
    if |a| > 0 {
      assert (a + b)[0] == a[0];
      assert (a + b)[1..] == a[1..] + b;
      CountedLengthAppend(a[1..], b);
    }
  }

  // ---------------------------------------------------------------------
  // Decimal rendering, the inverse of parseInt

  function DigitChar(d: nat): (c: char)
    requires d < 10
    ensures IsDigit(c) && DigitValue(c) == d
  {
    ('0' as int + d) as char
  }

  /** The decimal digits of `n`, without leading zeros. */
  function ShowNat(n: nat): (r: string)
    ensures |r| > 0 && AllDigits(r)
  {
    if n < 10 then [DigitChar(n)] else ShowNat(n / 10) + [DigitChar(n % 10)]
  }

  /** The decimal rendering of `n`, with a `-` sign when negative. */
  function Show(n: int): string {
    if n < 0 then "-" + ShowNat(-n) else ShowNat(n)
  }

  lemma {:induction false} DigitsValueShowNat(n: nat)
    ensures DigitsValue(ShowNat(n)) == n
  {
    if n >= 10 {
      var s := ShowNat(n);
      assert s[..|s| - 1] == ShowNat(n / 10);
      DigitsValueShowNat(n / 10);
    }
  }

  lemma DigitPrefixOfDigits(s: string)
    requires AllDigits(s)
    ensures DigitPrefix(s) == s
  {
  }

  lemma ParseIntDigits(ds: string)
    requires |ds| > 0 && AllDigits(ds)
    ensures ParseInt(ds) == Int(DigitsValue(ds))
  {
    assert IsDigit(ds[0]);
    assert TrimStart(ds) == ds;
    DigitPrefixOfDigits(ds);
  }

  /** A string that does not start with whitespace is its own `TrimStart`. */
  lemma TrimStartKeeps(s: string)
    requires |s| > 0 && !IsSpace(s[0])
    ensures TrimStart(s) == s
  {
  }

  lemma ParseIntMinusDigits(ds: string)
    requires |ds| > 0 && AllDigits(ds)
    ensures ParseInt("-" + ds) == Int(-(DigitsValue(ds) as int))
  {
    var s := "-" + ds;
    assert s[0] == '-';
    TrimStartKeeps(s);
    assert s[1..] == ds;
    DigitPrefixOfDigits(ds);
    assert LeadingNumber(s[1..]) == Int(DigitsValue(ds));
  }

  /** `parseInt` reads back every decimal rendering it could be given. */
  lemma ParseIntShow(n: int)
    ensures ParseInt(Show(n)) == Int(n)
  {
    if n < 0 {
      DigitsValueShowNat(-n);
      ParseIntMinusDigits(ShowNat(-n));
    } else {
      DigitsValueShowNat(n);
      ParseIntDigits(ShowNat(n));
    }
  }

  // ---------------------------------------------------------------------
  // Binary string order

  /** `a` sorts strictly before `b`, comparing code points left to right. */
  predicate LexLess(a: string, b: string) {
    if |a| == 0 then |b| > 0
    else if |b| == 0 then false
    else if a[0] != b[0] then a[0] < b[0]
    else LexLess(a[1..], b[1..])
  }

  lemma {:induction false} LexLessIrreflexive(a: string)
    ensures !LexLess(a, a)
  {
    if |a| > 0 {
      LexLessIrreflexive(a[1..]);
    }
  }

  lemma {:induction false} LexLessTransitive(a: string, b: string, c: string)
    requires LexLess(a, b) && LexLess(b, c)
    ensures LexLess(a, c)
  {
    if |a| > 0 && |b| > 0 && |c| > 0 && a[0] == b[0] && b[0] == c[0] {
      LexLessTransitive(a[1..], b[1..], c[1..]);
    }
  }

  lemma {:induction false} LexLessConnected(a: string, b: string)
    requires a != b
    ensures LexLess(a, b) || LexLess(b, a)
  {
    if |a| > 0 && |b| > 0 && a[0] == b[0] {
      assert a == [a[0]] + a[1..] && b == [b[0]] + b[1..];
      LexLessConnected(a[1..], b[1..]);
    }
  }
}

=== FILE: validation.dfy ===
/**
 * The request validators (middleware/validationMiddleware.js): per-route
 * chains of sanitizers and checks, and the gate that answers 400 with the
 * whole error list instead of running the handler.
 *
 * Every check of a chain runs (none bails out early), so one field can
 * contribute several errors; errors are listed chain by chain, check by
 * check. Sanitizers rewrite the body the handler then sees. A field the
 * client did not send is seen by a required-field chain as "".
 */
module Validation {
  import opened Common
  import opened Text

  /** Library predicates and sanitizers the model does not look inside. */
  datatype Oracles = Oracles(
    isEmail: string -> bool,         // `isEmail()`
    normalizeEmail: string -> string, // `normalizeEmail()`
    isISO8601: string -> bool,       // `isISO8601()`
    isObjectId: string -> bool       // `mongoose.Types.ObjectId.isValid`
  )

  /** One entry of the error list: the field and the message of the failed check. */
  datatype FieldError = FieldError(field: string, message: string)

  /** What a chain hands on: its errors and the sanitized input. */
  datatype Checked<A> = Checked(errors: seq<FieldError>, sanitized: A)

  const MaxNameLength := 50
  const MinPasswordLength := 6
  const MaxTitleLength := 100
  const MaxDescriptionLength := 500
  const Priorities: set<string> := {"low", "medium", "high"}

  // The error each check reports when it fails.
  const NameRequired := FieldError("name", "Name is required")
  const NameTooLong := FieldError("name", "Name cannot be more than 50 characters")
  const EmailRequired := FieldError("email", "Email is required")
  const EmailInvalid := FieldError("email", "Please provide a valid email")
  const PasswordRequired := FieldError("password", "Password is required")
  const PasswordTooShort := FieldError("password", "Password must be at least 6 characters")
  const TitleRequired := FieldError("title", "Title is required")
  const TitleTooLong := FieldError("title", "Title cannot be more than 100 characters")
  const DescriptionTooLong := FieldError("description", "Description cannot be more than 500 characters")
  const PriorityInvalid := FieldError("priority", "Priority must be low, medium, or high")
  const DueDateInvalid := FieldError("dueDate", "Due date must be a valid date")
  const InvalidId := FieldError("id", "Invalid ID format")

  // The checks of each chain, and of each route, in the order they are declared.
  const NameChecks := [NameRequired, NameTooLong]
  const EmailChecks := [EmailRequired, EmailInvalid]
  const PasswordChecks := [PasswordRequired, PasswordTooShort]
  const RegisterChecks := NameChecks + (EmailChecks + PasswordChecks)
  const LoginChecks := EmailChecks + [PasswordRequired]
  const TitleChecks := [TitleRequired, TitleTooLong]
  const OptionalChecks := [DescriptionTooLong, PriorityInvalid, DueDateInvalid]
  const TaskChecks := TitleChecks + OptionalChecks

  // ---------------------------------------------------------------------
  // Error lists in chain order

  /** `xs` is `ys` with some elements deleted: the failed checks, in declaration order. */
  predicate Subsequence<T(==)>(xs: seq<T>, ys: seq<T>)
    decreases |ys|
  {
    || |xs| == 0
    || (|ys| > 0 && ((xs[0] == ys[0] && Subsequence(xs[1..], ys[1..])) || Subsequence(xs, ys[1..])))
  }

  /** No element occurs twice. */
  predicate Distinct<T(==)>(ys: seq<T>) {
    forall i, j :: 0 <= i < j < |ys| ==> ys[i] != ys[j]
  }

  lemma {:induction false} SubsequenceMembers<T>(xs: seq<T>, ys: seq<T>)
    ensures Subsequence(xs, ys) ==> forall x :: x in xs ==> x in ys
    decreases |ys|
  {
    if |xs| > 0 && |ys| > 0 {
      SubsequenceMembers(xs[1..], ys[1..]);
      SubsequenceMembers(xs, ys[1..]);
      assert forall x :: x in xs ==> x == xs[0] || x in xs[1..];
    }
  }

  lemma {:induction false} SubsequenceOfItself<T>(xs: seq<T>)
    ensures Subsequence(xs, xs)
    decreases |xs|
  {
    if |xs| > 0 {
      SubsequenceOfItself(xs[1..]);
    }
  }

  lemma {:induction false} SubsequenceExtend<T>(xs: seq<T>, ys: seq<T>, zs: seq<T>)
    requires Subsequence(xs, zs)
    ensures Subsequence(xs, ys + zs)
    decreases |ys|
  {
    if |ys| == 0 {
      assert ys + zs == zs;
    } else if |xs| > 0 {
      assert (ys + zs)[1..] == ys[1..] + zs;
      SubsequenceExtend(xs, ys[1..], zs);
    }
  }

  /** Failed checks of consecutive chains line up with the chains' declarations. */
  lemma {:induction false} SubsequenceConcat<T>(a: seq<T>, b: seq<T>, c: seq<T>, d: seq<T>)
    requires Subsequence(a, b) && Subsequence(c, d)
    ensures Subsequence(a + c, b + d)
    decreases |b|
  {
    if |a| == 0 {
      assert a + c == c;
      SubsequenceExtend(c, b, d);
    } else {
      assert (b + d)[1..] == b[1..] + d;
      if a[0] == b[0] && Subsequence(a[1..], b[1..]) {
        assert (a + c)[1..] == a[1..] + c;
        SubsequenceConcat(a[1..], b[1..], c, d);
      } else {
        SubsequenceConcat(a, b[1..], c, d);
      }
    }
  }

  /**
   * Over checks that are all different, an error list in declaration order
   * is fixed by which checks failed: the contracts below, which say which
   * errors are present and that they come in order, leave one list.
   */
  lemma {:induction false} SubsequenceDetermined<T>(xs: seq<T>, xs': seq<T>, ys: seq<T>)
    requires Distinct(ys)
    requires Subsequence(xs, ys) && Subsequence(xs', ys)
    requires forall y :: y in ys ==> (y in xs <==> y in xs')
    ensures xs == xs'
    decreases |ys|
  {
    SubsequenceMembers(xs, ys);
    SubsequenceMembers(xs', ys);
    if |ys| > 0 {
      var rest := ys[1..];
      assert Distinct(rest);
      assert ys[0] !in rest;
      if ys[0] in xs {
        Head(xs, ys);
        Head(xs', ys);
        var t, t' := xs[1..], xs'[1..];
        SubsequenceMembers(t, rest);
        SubsequenceMembers(t', rest);
        forall y | y in rest
          ensures y in t <==> y in t'
        {
          assert y != ys[0];
          assert y in xs <==> y in t;
          assert y in xs' <==> y in t';
        }
        SubsequenceDetermined(t, t', rest);
        assert xs == [ys[0]] + t;
        assert xs' == [ys[0]] + t';
      } else {
        Skip(xs, ys);
        Skip(xs', ys);
        SubsequenceDetermined(xs, xs', rest);
      }
    }
  }

  /** When the first check failed, the list starts with its error and the rest follows the remaining checks. */
  lemma Head<T>(xs: seq<T>, ys: seq<T>)
    requires Distinct(ys) && |ys| > 0 && Subsequence(xs, ys) && ys[0] in xs
    ensures |xs| > 0 && xs[0] == ys[0] && Subsequence(xs[1..], ys[1..])
  {
    SubsequenceMembers(xs, ys[1..]);
    assert forall i :: 1 <= i < |ys| ==> ys[0] != ys[i];
  }

  /** When the first check passed, the list follows the remaining checks. */
  lemma Skip<T>(xs: seq<T>, ys: seq<T>)
    requires |ys| > 0
    requires Subsequence(xs, ys)
    requires ys[0] !in xs
    ensures Subsequence(xs, ys[1..])
  {
    if |xs| > 0 {
      assert xs[0] in xs;
    }
  }

  // ---------------------------------------------------------------------
  // One check

  /** `if (!ok) report e` for one check of a chain. */
  function Check(ok: bool, e: FieldError): (es: seq<FieldError>)
    ensures e in es <==> !ok
    ensures forall x :: x in es ==> x == e
    ensures Subsequence(es, [e])
  {
    if ok then [] else [e]
  }

  // ---------------------------------------------------------------------
  // Registration and login

  datatype Registration = Registration(name: string, email: string, password: string)

  /** The `name` chain's checks, on the trimmed name. */
  function NameErrors(name: string): (es: seq<FieldError>)
    ensures forall e :: e in es ==> e.field == "name"
    ensures Subsequence(es, NameChecks)
    ensures NameRequired in es <==> name == ""
    ensures NameTooLong in es <==> CountedLength(name) > MaxNameLength
    ensures es == [] <==> name != "" && CountedLength(name) <= MaxNameLength
  {
    var r := Check(name != "", NameRequired);
    var l := Check(CountedLength(name) <= MaxNameLength, NameTooLong);
    SubsequenceConcat(r, [NameRequired], l, [NameTooLong]);
    assert [NameRequired] + [NameTooLong] == NameChecks;
    r + l
  }

  /** The `email` chain's checks, on the trimmed address. */
  function EmailErrors(o: Oracles, email: string): (es: seq<FieldError>)
    ensures forall e :: e in es ==> e.field == "email"
    ensures Subsequence(es, EmailChecks)
    ensures EmailRequired in es <==> email == ""
    ensures EmailInvalid in es <==> !o.isEmail(email)
    ensures es == [] <==> email != "" && o.isEmail(email)
  {
    var r := Check(email != "", EmailRequired);
    var v := Check(o.isEmail(email), EmailInvalid);
    SubsequenceConcat(r, [EmailRequired], v, [EmailInvalid]);
    assert [EmailRequired] + [EmailInvalid] == EmailChecks;
    r + v
  }

  /** validator.js's `isEmail` refuses the empty string, as any email syntax does. */
  predicate RefusesEmptyEmail(o: Oracles) {
    !o.isEmail("")
  }

  /** Both checks of the email chain run: an empty email is reported as missing and as malformed. */
  lemma EmptyEmailGetsBoth(o: Oracles)
    requires RefusesEmptyEmail(o)
    ensures EmailErrors(o, "") == [EmailRequired, EmailInvalid]
  {
    var es := EmailErrors(o, "");
    SubsequenceDetermined(es, EmailChecks, EmailChecks);
  }

  /** The registration `password` chain's checks, on the trimmed password. */
  function PasswordErrors(password: string): (es: seq<FieldError>)
    ensures forall e :: e in es ==> e.field == "password"
    ensures Subsequence(es, PasswordChecks)
    ensures PasswordRequired in es <==> password == ""
    ensures PasswordTooShort in es <==> CountedLength(password) < MinPasswordLength
    ensures es == [] <==> CountedLength(password) >= MinPasswordLength
  {
    var r := Check(password != "", PasswordRequired);
    var l := Check(CountedLength(password) >= MinPasswordLength, PasswordTooShort);
    SubsequenceConcat(r, [PasswordRequired], l, [PasswordTooShort]);
    assert [PasswordRequired] + [PasswordTooShort] == PasswordChecks;
    r + l
  }

  /** The registration chains: name, then email, then password. */
  function RegisterValidation(o: Oracles, b: Registration): (c: Checked<Registration>)
    ensures c.sanitized == Registration(Trim(b.name), o.normalizeEmail(Trim(b.email)), Trim(b.password))
    ensures Subsequence(c.errors, RegisterChecks)
    ensures NameRequired in c.errors <==> Trim(b.name) == ""
    ensures NameTooLong in c.errors <==> CountedLength(Trim(b.name)) > MaxNameLength
    ensures EmailRequired in c.errors <==> Trim(b.email) == ""
    ensures EmailInvalid in c.errors <==> !o.isEmail(Trim(b.email))
    ensures PasswordRequired in c.errors <==> Trim(b.password) == ""
    ensures PasswordTooShort in c.errors <==> CountedLength(Trim(b.password)) < MinPasswordLength
    ensures c.errors == [] <==>
      && Trim(b.name) != "" && CountedLength(Trim(b.name)) <= MaxNameLength
      && Trim(b.email) != "" && o.isEmail(Trim(b.email))
      && CountedLength(Trim(b.password)) >= MinPasswordLength
  {
    var name := Trim(b.name);
    var email := Trim(b.email);
    var password := Trim(b.password);
    var n := NameErrors(name);
    var e := EmailErrors(o, email);
    var p := PasswordErrors(password);
    SubsequenceConcat(e, EmailChecks, p, PasswordChecks);
    SubsequenceConcat(n, NameChecks, e + p, EmailChecks + PasswordChecks);
    Checked(n + (e + p), Registration(name, o.normalizeEmail(email), password))
  }

  datatype Credentials = Credentials(email: string, password: string)

  /** The login chains: email as on registration, password only required. */
  function LoginValidation(o: Oracles, b: Credentials): (c: Checked<Credentials>)
    ensures c.sanitized == Credentials(o.normalizeEmail(Trim(b.email)), Trim(b.password))
    ensures Subsequence(c.errors, LoginChecks)
    ensures EmailRequired in c.errors <==> Trim(b.email) == ""
    ensures EmailInvalid in c.errors <==> !o.isEmail(Trim(b.email))
    ensures PasswordRequired in c.errors <==> Trim(b.password) == ""
    ensures c.errors == [] <==> Trim(b.email) != "" && o.isEmail(Trim(b.email)) && Trim(b.password) != ""
  {
    var email := Trim(b.email);
    var password := Trim(b.password);
    var e := EmailErrors(o, email);
    var p := Check(password != "", PasswordRequired);
    SubsequenceConcat(e, EmailChecks, p, [PasswordRequired]);
    Checked(e + p, Credentials(o.normalizeEmail(email), password))
  }

  // ---------------------------------------------------------------------
  // Tasks

  /** A task body as sent; optional fields are `None` when absent. */
  datatype TaskBody = TaskBody(
    title: string,
    description: Option<string>,
    priority: Option<string>,
    dueDate: Option<string>)

  /** An optional field's check runs only when the field is present. */
  function CheckPresent(v: Option<string>, ok: string -> bool, e: FieldError): (es: seq<FieldError>)
    ensures e in es <==> v.Some? && !ok(v.value)
    ensures Subsequence(es, [e])
  {
    if v.Some? then Check(ok(v.value), e) else []
  }

  /** The `title` chain's checks, on the trimmed title. */
  function TitleErrors(title: string): (es: seq<FieldError>)
    ensures forall e :: e in es ==> e.field == "title"
    ensures Subsequence(es, TitleChecks)
    ensures TitleRequired in es <==> title == ""
    ensures TitleTooLong in es <==> CountedLength(title) > MaxTitleLength
    ensures es == [] <==> title != "" && CountedLength(title) <= MaxTitleLength
  {
    var r := Check(title != "", TitleRequired);
    var l := Check(CountedLength(title) <= MaxTitleLength, TitleTooLong);
    SubsequenceConcat(r, [TitleRequired], l, [TitleTooLong]);
    assert [TitleRequired] + [TitleTooLong] == TitleChecks;
    r + l
  }

  /** The checks of the optional chains (description trimmed, priority, due date), each run only when its field is present. */
  function OptionalErrors(o: Oracles, description: Option<string>, priority: Option<string>, dueDate: Option<string>): (es: seq<FieldError>)
    ensures forall e :: e in es ==> e.field != "title"
    ensures Subsequence(es, OptionalChecks)
    ensures DescriptionTooLong in es <==> description.Some? && CountedLength(description.value) > MaxDescriptionLength
    ensures PriorityInvalid in es <==> priority.Some? && priority.value !in Priorities
    ensures DueDateInvalid in es <==> dueDate.Some? && !o.isISO8601(dueDate.value)
    ensures es == [] <==>
      && (description.Some? ==> CountedLength(description.value) <= MaxDescriptionLength)
      && (priority.Some? ==> priority.value in Priorities)
      && (dueDate.Some? ==> o.isISO8601(dueDate.value))
  {
    var d := CheckPresent(description, s => CountedLength(s) <= MaxDescriptionLength, DescriptionTooLong);
    var p := CheckPresent(priority, s => s in Priorities, PriorityInvalid);
    var u := CheckPresent(dueDate, o.isISO8601, DueDateInvalid);
    SubsequenceConcat(p, [PriorityInvalid], u, [DueDateInvalid]);
    SubsequenceConcat(d, [DescriptionTooLong], p + u, [PriorityInvalid] + [DueDateInvalid]);
    assert [DescriptionTooLong] + ([PriorityInvalid] + [DueDateInvalid]) == OptionalChecks;
    d + (p + u)
  }

  /** The task chains: title, description, priority, due date. */
  function TaskValidation(o: Oracles, b: TaskBody): (c: Checked<TaskBody>)
    ensures c.sanitized.title == Trim(b.title)
    ensures c.sanitized.description == (if b.description.Some? then Some(Trim(b.description.value)) else None)
    ensures c.sanitized.priority == b.priority && c.sanitized.dueDate == b.dueDate
    ensures Subsequence(c.errors, TaskChecks)
    ensures TitleRequired in c.errors <==> Trim(b.title) == ""
    ensures TitleTooLong in c.errors <==> CountedLength(Trim(b.title)) > MaxTitleLength
    ensures DescriptionTooLong in c.errors <==>
      b.description.Some? && CountedLength(Trim(b.description.value)) > MaxDescriptionLength
    ensures PriorityInvalid in c.errors <==> b.priority.Some? && b.priority.value !in Priorities
    ensures DueDateInvalid in c.errors <==> b.dueDate.Some? && !o.isISO8601(b.dueDate.value)
    ensures c.errors == [] <==>
      && Trim(b.title) != "" && CountedLength(Trim(b.title)) <= MaxTitleLength
      && (b.description.Some? ==> CountedLength(Trim(b.description.value)) <= MaxDescriptionLength)
      && (b.priority.Some? ==> b.priority.value in Priorities)
      && (b.dueDate.Some? ==> o.isISO8601(b.dueDate.value))
  {
    var title := Trim(b.title);
    var description := if b.description.Some? then Some(Trim(b.description.value)) else None;
    var t := TitleErrors(title);
    var rest := OptionalErrors(o, description, b.priority, b.dueDate);
    SubsequenceConcat(t, TitleChecks, rest, OptionalChecks);
    Checked(t + rest, TaskBody(title, description, b.priority, b.dueDate))
  }

  /** The `:id` parameter check. */
  function ObjectIdValidation(o: Oracles, id: string): (c: Checked<string>)
    ensures c.sanitized == id
    ensures c.errors == [] <==> o.isObjectId(id)
    ensures c.errors != [] ==> c.errors == [InvalidId]
  {
    Checked(Check(o.isObjectId(id), InvalidId), id)
  }

  // ---------------------------------------------------------------------
  // The gate

  /** The status `validateRequest` answers a refused request with. */
  const RejectionStatus := 400

  /** The gate's outcome: a 400 carrying the errors, or the handler's result. */
  datatype Gated<R> = Rejected(status: int, errors: seq<FieldError>) | Passed(result: R)

  /** `validateRequest`: any error stops the request with a 400; otherwise the handler runs on the sanitized input. */
  function Gate<A, R>(c: Checked<A>, handler: A -> R): (g: Gated<R>)
    ensures g.Rejected? <==> |c.errors| > 0
    ensures g.Rejected? ==> g.status == 400 && g.errors == c.errors
    ensures g.Passed? ==> g.result == handler(c.sanitized)
  {
    if |c.errors| > 0 then Rejected(RejectionStatus, c.errors) else Passed(handler(c.sanitized))
  }

  /** A rejected request never reaches the handler: any two handlers give the same outcome. */
  lemma GateIgnoresHandlerOnError<A, R>(c: Checked<A>, h1: A -> R, h2: A -> R)
    requires |c.errors| > 0
    ensures Gate(c, h1) == Gate(c, h2) == Rejected(400, c.errors)
  {
  }

  /** A route with an `:id` reaches its handler with the id unchanged iff it is an ObjectId, and is otherwise refused with the one id error. */
  lemma ObjectIdGate<R>(o: Oracles, id: string, handler: string -> R)
    ensures Gate(ObjectIdValidation(o, id), handler)
         == if o.isObjectId(id) then Passed(handler(id)) else Rejected(400, [InvalidId])
  {
  }

  // ---------------------------------------------------------------------
  // Properties of the chains

  /** The error lists of the validators are fixed by their contracts: each lists its failed checks once, in order. */
  lemma ChecksDistinct()
    ensures Distinct(RegisterChecks) && Distinct(LoginChecks) && Distinct(TaskChecks)
  {
  }

  /**
   * Login asks less of a body than registration does: its errors are a
   * subsequence of the registration errors for the same email and password,
   * so a body that registration accepts is accepted by login, and both hand
   * on the same sanitized email and password.
   */
  lemma LoginAsksLessThanRegister(o: Oracles, b: Registration)
    ensures Subsequence(LoginValidation(o, Credentials(b.email, b.password)).errors,
                        RegisterValidation(o, b).errors)
    ensures RegisterValidation(o, b).errors == [] ==> LoginValidation(o, Credentials(b.email, b.password)).errors == []
    ensures LoginValidation(o, Credentials(b.email, b.password)).sanitized
         == Credentials(RegisterValidation(o, b).sanitized.email, RegisterValidation(o, b).sanitized.password)
  {
    var email := Trim(b.email);
    var password := Trim(b.password);
    var e := EmailErrors(o, email);
    var pr := Check(password != "", PasswordRequired);
    var pl := Check(CountedLength(password) >= MinPasswordLength, PasswordTooShort);
    var n := NameErrors(Trim(b.name));
    var login := LoginValidation(o, Credentials(b.email, b.password)).errors;
    var register := RegisterValidation(o, b).errors;
    assert login == e + pr;
    assert PasswordErrors(password) == pr + pl;
    assert register == n + (e + (pr + pl));
    SubsequenceOfItself(e);
    SubsequenceOfItself(pr);
    SubsequenceConcat<FieldError>(pr, pr, [], pl);
    assert pr + [] == pr;
    SubsequenceConcat(e, e, pr, pr + pl);
    SubsequenceExtend(e + pr, n, e + (pr + pl));
    SubsequenceMembers(login, register);
  }

  /** An all-blank password is reported twice: missing, and too short. */
  lemma BlankPasswordReportedTwice(password: string)
    requires forall i :: 0 <= i < |password| ==> IsSpace(password[i])
    ensures PasswordErrors(Trim(password)) == [PasswordRequired, PasswordTooShort]
  {
    TrimEmptyIffAllSpace(password);
  }

  /**
   * Surrounding whitespace on a title is invisible to validation: the padded
   * body gets exactly the errors and the sanitized body the unpadded one gets.
   */
  lemma PaddedTitleAccepted(o: Oracles, b: TaskBody, pad: string)
    requires forall i :: 0 <= i < |pad| ==> IsSpace(pad[i])
    requires |b.title| > 0 && !IsSpace(b.title[0]) && !IsSpace(b.title[|b.title| - 1])
    ensures TaskValidation(o, b.(title := pad + b.title + pad)) == TaskValidation(o, b)
    ensures TaskValidation(o, b.(title := pad + b.title + pad)).sanitized.title == b.title
  {
    TrimPadded(pad, b.title);
    TrimKeepsTrimmed(b.title);
    TaskValidationSeesTrimmedTitle(o, b, pad + b.title + pad);
  }

  /** A non-empty string without whitespace at either end is left as it is. */
  lemma TrimKeepsTrimmed(s: string)
    requires |s| > 0 && !IsSpace(s[0]) && !IsSpace(s[|s| - 1])
    ensures Trim(s) == s
  {
    TrimPadded("", s);
    assert "" + s + "" == s;
  }

  /** The task chains see the title only through its trimmed value. */
  lemma TaskValidationSeesTrimmedTitle(o: Oracles, b: TaskBody, title: string)
    requires Trim(title) == Trim(b.title)
    ensures TaskValidation(o, b.(title := title)) == TaskValidation(o, b)
  {
  }

  /** Whitespace padding on either side of a trimmed, non-empty string is trimmed away exactly. */
  lemma {:induction false} TrimPadded(pad: string, s: string)
    requires forall i :: 0 <= i < |pad| ==> IsSpace(pad[i])
    requires |s| > 0 && !IsSpace(s[0]) && !IsSpace(s[|s| - 1])
    ensures Trim(pad + s + pad) == s
  {
    TrimStartPadded(pad, s + pad);
    assert pad + s + pad == pad + (s + pad);
    TrimEndPadded(s, pad);
  }

  lemma {:induction false} TrimStartPadded(pad: string, s: string)
    requires forall i :: 0 <= i < |pad| ==> IsSpace(pad[i])
    requires |s| > 0 && !IsSpace(s[0])
    ensures TrimStart(pad + s) == s
  {
    if |pad| > 0 {
      assert (pad + s)[1..] == pad[1..] + s;
      TrimStartPadded(pad[1..], s);
    } else {
      assert pad + s == s;
    }
  }

  lemma {:induction false} TrimEndPadded(s: string, pad: string)
    requires forall i :: 0 <= i < |pad| ==> IsSpace(pad[i])
    requires |s| > 0 && !IsSpace(s[|s| - 1])
    ensures TrimEnd(s + pad) == s
  {
    if |pad| > 0 {
      assert (s + pad)[..|s + pad| - 1] == s + pad[..|pad| - 1];
      TrimEndPadded(s, pad[..|pad| - 1]);
    } else {
      assert s + pad == s;
    }
  }
}
